=== FILE: README.md ===
# Routing tree of go-api, modelled in Dafny

This project models the request-dispatch core of the go-api web framework: a
tree of path segments into which (method, path, handler, middleware) routes
are registered, and a matcher that resolves a method and a path to a
handler, the middleware chain collected from the root down, and the path
parameters captured on the way.

A node's segment is one of three kinds:

- static text;
- a parameter `{name}`, which captures one segment;
- a wildcard `*name`, which captures the rest of the path.

Lookup tries the children in a fixed order: the static child with the
segment's text first, and it commits. Otherwise it tries the parameter
child, backtracking if that attempt fails, and then the wildcard child.

The model is functional.

- A node is an immutable `Tree.Node` that owns its children.
- The parent pointer of the source is replaced by the trail of child steps
  (`Tree.Step`) from the root. Everything the parent link served is
  recomputed by walking that trail downwards: the node's full path
  (`Tree.NodePath`) and the collected middleware (`Tree.ChainAlong`).
- Registration returns the new tree together with the trail to the
  destination node. This stands in for the `*RouteNode` the source hands
  back.

Modules, one per source concern:

| module | file | models |
|---|---|---|
| `Results` | results.dfy | Option and Result wrappers |
| `Regex` | regex.dfy | the two segment patterns of regex.go, as predicates and as automata |
| `Tree` | tree.dfy | `RouteType`, `RouteNode`, `NewRouteNode`, `Path`, `collectMiddlewares` |
| `Segments` | segments.dfy | `getPathSegment`, leading-slash stripping, `getRouteTypeFromSegment` |
| `RouteErrors` | errors.dfy | `RouteError`, the sentinels, `Unwrap`, `Error` |
| `Structure` | structure.dfy | the structural invariant of a tree, and the engine's root node |
| `Insert` | insert.dfy | `addRoute` |
| `Registration` | registration.dfy | `Route`, `Group`, `Use` and the seven per-method helpers |
| `Match` | find.dfy | `find`, `Find`, and the backtracking defect |
| `RoundTrip` | roundtrip.dfy | registering a route, then finding it |
| `Scenarios` | scenarios.dfy | the route-priority example of the test suite: the tree its registrations build, and the lookups on it |
| `Config` | config.dfy | `DefaultConfig`, `Validate` and the messages of its refusals |

Lookup has a reference definition independent of the matcher, `Match.Admits`: the set
of trails a path may follow, with the captures each produces. Against it
the model proves:

- soundness and completeness of lookup;
- priority: among the admissible trails that end at a node binding the
  method, lookup returns the first in the static < parameter < wildcard
  order;
- that captures are determined by the trail.

Three places need a note on how the model reads the source:

- **Backtracking.** The comments at internal/routes/route.go:149 and :160
  promise that the captures are saved before the parameter attempt and
  restored after it fails. The code does not do that: `maps.Copy` at :151
  has its arguments swapped, so the saved map stays empty, and :161 then
  replaces the captures with it, wiping every capture made above. The
  model keeps both readings. `Match.FindFrom` and `Match.Find` model the
  promised restore. After a failed parameter attempt followed by a
  wildcard fallback, their captures therefore differ from the code's.
  `Match.FindAsWritten` is the code as written. The two agree on
  everything but the captures (see "## Findings").
- **getPathSegment.** Its remainder is not always shorter than its input:
  "/a" gives ("", "/a"). Only the remainder after one leading slash has
  been stripped is shorter, and that is the fact termination uses
  (`Segments.NextSegment`).
- **Parameter spelling.** The tests next to route.go spell parameters
  `:id`. The classifier's patterns in regex.go recognise only `{id}`, under
  which `:id` is static text (`Segments.ClassifierExamples`). The model
  follows regex.go, and its scenarios use the brace spelling.

## Model

| member | source | states |
|---|---|---|
| `Regex.MatchPathParam` | engine/internal/routes/regex.go:6-18 | the automaton accepts a segment exactly when it is an opening brace, characters other than a closing brace, and a closing brace |
| `Regex.MatchWildcard` | engine/internal/routes/regex.go:7-23 | the automaton accepts a segment exactly when it is an asterisk followed by characters other than a slash |
| `Regex.ParamAndWildcardDisjoint` | engine/internal/routes/regex.go:6-7 | no segment is both a parameter and a wildcard |
| `Regex.PatternExamples` | engine/internal/routes/regex_test.go:9-17 | "{id}" is only a parameter, "*id" only a wildcard, "users" neither; "{}" and "*" are accepted with empty names |
| `Regex.BraceInsideRejected` | engine/internal/routes/regex.go:6 | a closing brace inside the braces disqualifies a segment even when it also ends in one |
| `Tree.StaticIndex` | internal/routes/route.go:141-145 | the scan of the static children stops at the first child whose text equals the segment, and no earlier child has it |
| `Tree.NodePath` | internal/routes/route.go:82-92 | every node's full path starts with a slash |
| `Tree.NodePathIsJoin` | internal/routes/route.go:82-92 | with non-empty segment texts, a node's full path is a slash followed by the texts from the root down, joined by slashes |
| `Tree.FreshNodeIsLeaf` | internal/routes/route.go:60-77 | a new node binds no method, has no children and no middleware |
| `Segments.GetPathSegment` | engine/internal/routes/methods.go:273-290 | the segment holds no slash; a non-empty remainder starts with a slash and the two put together are the input; an empty remainder means the input was the segment, or the segment and one trailing slash; "" and "/" give two empty strings |
| `Segments.GetPathSegmentExact` | engine/internal/routes/methods.go:273-290 | splitting "segment/rest" gives the segment and "/rest", or an empty remainder when rest is empty |
| `Segments.NextSegment` | internal/routes/route.go:133-138 | after one leading slash is dropped, the next segment holds no slash and the remainder is strictly shorter than the path |
| `Segments.NextSegmentIgnoresLeadingSlash` | internal/routes/route.go:133-136 | a path is split the same way with or without one leading slash |
| `Segments.RouteTypeFromSegment` | engine/internal/routes/methods.go:294-302 | parameter exactly for the brace pattern, wildcard exactly for the asterisk pattern, static otherwise; the bound name is the text between the braces or after the asterisk, and empty for static text |
| `Segments.ClassifierExamples` | internal/routes/route_test.go:364-383 | the test suite's segments with their kinds and names, in the brace spelling; ":id" is static |
| `RouteErrors.MessagesDistinct` | engine/internal/routes/errors.go:30-34 | the three sentinels carry pairwise different messages |
| `RouteErrors.NewRouteError` | engine/internal/routes/errors.go:14-24 | the wrapper keeps method and path as given, and unwrapping it yields the sentinel |
| `RouteErrors.ErrorString` | engine/internal/routes/errors.go:26-28 | the prefix, method, path and sentinel message sit at offsets fixed by the field lengths, with the separators between them |
| `RouteErrors.SentinelOfErrorString` | engine/internal/routes/errors.go:26-34 | the sentinel can be read back from the rendered message |
| `RouteErrors.ErrorStringsDistinguishSentinels` | engine/internal/routes/errors.go:26-34 | for the same method and path, different sentinels render to different messages |
| `Structure.NewRoot` | engine/internal/engine/engine.go:28 | the engine's root has the root kind and empty text, satisfies the tree invariant, and binds nothing anywhere below it |
| `Insert.AddRoute` | engine/internal/routes/methods.go:213-270 | the only rejection is already-exists; on success the destination trail is the path's step trail and the root keeps its text, kind and name |
| `Insert.AddRouteRejectsExactlyDuplicates` | engine/internal/routes/methods.go:219-224 | registration fails if and only if the node the path leads to already binds the method |
| `Insert.AddRouteBinds` | engine/internal/routes/methods.go:226-229 | after success the destination exists, binds the handler for the method, keeps its other methods, and has the route's middleware appended after its own |
| `Insert.AddRoutePreservesValid` | engine/internal/routes/methods.go:240-269 | insertion keeps every child in the slot its segment kind selects and keeps static texts distinct |
| `Insert.AddRouteKeepsNodes` | engine/internal/routes/methods.go:243-269 | every node that existed is still reachable with the same text, kind and bound name, so a reused parameter or wildcard child keeps its first name |
| `Insert.ChildFor` | engine/internal/routes/methods.go:243-267 | a segment enters the child already in its slot; when the slot is empty, a new node with the segment as its text and the segment's kind and parameter name |
| `Insert.AddRouteMakesFirstChild` | engine/internal/routes/methods.go:244-267 | when the first segment's slot was empty, the registered tree has there a node made for that segment |
| `Insert.AddRouteNamesNewNodes` | engine/internal/routes/methods.go:240-269 | every node a registration creates on the way to its destination carries the segment of its depth as its text, with that segment's kind and parameter name, so "{id}" makes a parameter node binding "id" and "*path" a wildcard node binding "path" |
| `Insert.AddRouteFramesOthers` | engine/internal/routes/methods.go:240-269 | through every trail other than the destination's, handlers and middleware are as before, including trails that reached no node before: nodes made on the way bind nothing and carry no middleware |
| `Insert.AddRouteMakesOnlyTheWay` | engine/internal/routes/methods.go:240-269 | every node of the new tree was there before or lies on the destination's trail: nothing is made off the way |
| `Insert.NewSubtreeNeverRejects` | engine/internal/routes/methods.go:266-269 | insertion below a freshly made node cannot fail |
| `Insert.DuplicateRegistrationRejected` | engine/internal/routes/methods.go:220-224 | registering the same method and path twice is rejected the second time |
| `Insert.AddRouteLeadingSlashOptional` | engine/internal/routes/methods.go:232-235 | "users" and "/users" register alike, and so do "" and "/" |
| `Registration.Route` | engine/internal/routes/methods.go:35-46 | fails exactly on a duplicate, wrapped with the method and path as given; on success binds the handler and appends the middleware at the path's node |
| `Registration.Group` | engine/internal/routes/methods.go:24-29 | a group is a registration of the empty method with a nil handler at the prefix, carrying the group's middleware |
| `Registration.GroupTwiceFails` | engine/internal/routes/methods.go:24-29 | grouping the same prefix twice is rejected, because the first group took the empty method there |
| `Registration.Use` | engine/internal/routes/methods.go:13-16 | the middleware is appended in order to the node's own list, and nothing else about the node changes |
| `Registration.TokensDistinct` | engine/internal/routes/methods.go:57-207 | the seven helpers register under seven different method tokens |
| `Registration.RegisterVerb` | engine/internal/routes/methods.go:57-207 | a helper fails exactly on a duplicate and then returns its receiver unchanged; on success it returns the receiver, updated, not the new node, with the handler bound and the middleware appended at the path's node |
| `Registration.UseAt` | engine/internal/routes/methods.go:13-16 | calling `Use` on a node reached by a trail puts exactly `Use` of that node in its place: its middleware gets the new entries appended, its handlers stay |
| `Registration.UseAtFramesOthers` | engine/internal/routes/methods.go:13-16 | through every other trail, above, beside or below the node, handlers and middleware are as before |
| `Registration.RouteAt` | engine/internal/routes/methods.go:35-46 | registering on a group node extends the group's trail, fails exactly on a duplicate below the group, and on success binds the handler at the new destination while keeping the methods already bound there, and appends the middleware there |
| `Registration.ReplaceAtFramesOff` | engine/internal/routes/methods.go:35-46 | putting a subtree in place of the node at a trail leaves handlers and middleware unchanged through every trail that does not pass through that node |
| `Registration.RouteAtFramesOthers` | engine/internal/routes/methods.go:35-46 | registering on a group node leaves handlers and middleware unchanged through every trail other than the new destination, inside the group's subtree and outside it |
| `Match.FindFrom` | internal/routes/route.go:120-176 | every failure of the recursive lookup is route-not-found |
| `Match.FindSound` | internal/routes/route.go:120-184 | every match follows an admissible trail to a node binding the method, with that node's handler and the middleware of every node from the root down |
| `Match.FindComplete` | internal/routes/route.go:120-176 | if some admissible trail ends at a node binding the method, lookup succeeds |
| `Match.FindFromSucceedsIff` | internal/routes/route.go:120-176 | lookup succeeds if and only if some admissible trail ends at a node binding the method |
| `Match.FindPrefersHigherPriority` | internal/routes/route.go:140-173 | the trail lookup returns comes no later, in static < parameter < wildcard order, than any admissible trail to a node binding the method |
| `Match.AdmitsDeterminesCaptures` | internal/routes/route.go:147-173 | one trail produces one set of captures |
| `Match.FindAtConsumed` | internal/routes/route.go:121-131 | when the path is used up, lookup succeeds exactly when the node binds the method, returning its handler and the captures so far |
| `Match.FindAtStatic` | internal/routes/route.go:140-145 | with a static child for the segment, lookup is that child's lookup, one step longer |
| `Match.StaticMatchCommits` | internal/routes/route.go:140-145 | a static child for the segment commits: a miss below it is a miss, even if the parameter or wildcard child would match |
| `Match.FindAtParam` | internal/routes/route.go:147-158 | without a static match, a successful parameter attempt is the result, with the name bound to the segment |
| `Match.ParamBeforeWildcard` | internal/routes/route.go:147-162 | when a route through the parameter child binds the method, lookup takes the parameter child |
| `Match.FindAtWildcard` | internal/routes/route.go:147-173 | a wildcard step is the last step and is taken only when there is no static match and the parameter attempt failed |
| `Match.FindFallsBackToWildcard` | internal/routes/route.go:164-173 | with no static match and a failed parameter attempt, the wildcard child is looked up with nothing left, its name bound to the segment and the rest of the path |
| `Match.WildcardFallbackUsesSnapshot` | internal/routes/route.go:147-173 | a wildcard match adds only the wildcard's capture to the captures made above, and returns the wildcard node's handler |
| `Match.FindLeadingSlashOptional` | internal/routes/route.go:133-136 | "users" and "/users" are looked up alike |
| `Match.Find` | internal/routes/route.go:100-112 | a found route reports the method and path as given; a miss is wrapped with that method and path |
| `Match.FindSucceedsIff` | internal/routes/route.go:100-112 | from the root, lookup succeeds if and only if a route for the method matches the path |
| `Match.FindExplained` | internal/routes/route.go:100-184 | a found route's handler, captures and middleware are those of an admissible trail, the middleware collected from the root down |
| `Match.FindAsWritten` | internal/routes/route.go:147-162 | every failure of the lookup as written is route-not-found |
| `Match.AsWrittenDiffersOnlyInCaptures` | internal/routes/route.go:147-162 | the lookup as written succeeds on the same inputs as the intended one, along the same trail, with the same handler and middleware |
| `Match.AncestorCaptureKept` | internal/routes/route.go:147-173 | in the example tree, the intended lookup of "/1/2" keeps a = 1 beside w = 2 |
| `Match.AncestorCaptureLost` | internal/routes/route.go:149-161 | in the example tree, the lookup as written of "/1/2" returns only w = 2 |
| `RoundTrip.FindAfterAddRoute` | engine/internal/routes/methods.go:213-270 | after registering a path of static segments, lookup of it with the same method returns the handler, captures nothing, and follows the registered trail |
| `RoundTrip.RouteThenFind` | internal/routes/route_test.go:72-86 | the public registration followed by the public lookup returns the method, path and handler given, no captures, and the middleware from the root to the route's node |
| `RoundTrip.StaticTextsAlong` | internal/routes/route.go:82-92 | the node a static route reaches carries that route's segments from the root down, which is what its full path is built from |
| `Scenarios.RegisterParam` | internal/routes/route_test.go:180-185 | GET "/users/{id}" on the empty root makes the "users" node and its parameter child, bound for GET |
| `Scenarios.RegisterStatic` | internal/routes/route_test.go:187-189 | GET "/users/admin" then reuses "users" and adds the static child "admin" |
| `Scenarios.RegisterWildcard` | internal/routes/route_test.go:191-193 | GET "/users/*path" then reuses "users" and adds the wildcard child |
| `Scenarios.RegistrationsBuildPriorityTree` | internal/routes/route_test.go:180-193 | the test's three registrations, in its order, on the engine's empty root all succeed and build exactly the tree the lookup scenarios use |
| `Scenarios.StaticWins` | internal/routes/route_test.go:195-198 | in the priority test's tree, "/users/admin" takes the static route and captures nothing |
| `Scenarios.ParamBeatsWildcard` | internal/routes/route_test.go:200-204 | any other single segment under "/users" takes the parameter route and captures exactly id |
| `Scenarios.LeafParamFallsThrough` | internal/routes/route.go:147-173 | below a node whose parameter child has no children, a path of two or more segments without a static match is taken by the wildcard, which captures all of it |
| `Scenarios.WildcardTakesTheRest` | internal/routes/route_test.go:206-210 | a deeper path under "/users" is taken by the wildcard route, which captures the rest of the path with its slashes |
| `Scenarios.OtherMethodMisses` | internal/routes/route_test.go:87-90 | a path bound only for GET is a miss for POST, wrapped with the method and path as given |
| `Config.DefaultConfig` | engine/internal/engine/config.go:21-31 | the defaults are port 8080, read and write timeouts of 10 seconds and an idle timeout of 60 seconds, and they are acceptable |
| `Config.Validate` | engine/internal/engine/config.go:68-84 | no error exactly for a port in 1..65535 with positive read and write timeouts; a bad port is reported with the port, then a bad read timeout, then a bad write timeout |
| `Config.DefaultConfigValid` | engine/internal/engine/config.go:21-84 | the defaults pass validation |
| `Config.IdleTimeoutIgnored` | engine/internal/engine/config.go:68-84 | the idle timeout never affects the verdict |
| `Config.PortReportedFirst` | engine/internal/engine/config.go:70-73 | a bad port is reported whatever else is wrong |
| `Config.Message` | engine/internal/engine/config.go:71-80 | a port refusal reads "invalid server port: " followed by the port in decimal, which reads back as the port; the two timeout refusals carry their fixed texts |
| `Config.ConfigMessagesDistinct` | engine/internal/engine/config.go:71-80 | different refusals carry different messages, two bad ports included |
| `Config.DecimalRoundTrip` | engine/internal/engine/config.go:72 | the decimal rendering of an integer, sign included, reads back as that integer |
| `Config.DigitsRoundTrip` | engine/internal/engine/config.go:72 | the digits of a natural number start with a digit and read back as that number |

## Left out

- Serving HTTP is not modelled: `ServeHTTP`, the request context wrappers and the engine's listener are outside the routing core. Handlers and middleware are opaque identifiers and are never invoked.
- Regular-expression matching is not modelled as such. The two patterns are stated as character predicates, and `Regex.MatchPathParam` and `Regex.MatchWildcard` run the automata the patterns denote.
- Parent pointers are not modelled. `Path` and `collectMiddlewares` are recomputed along the trail from the root (`Tree.NodePath`, `Tree.ChainAlong`). The model therefore resolves lookups from the root only, as the engine does.
- In-place mutation and pointer identity are not modelled. A registration returns a new tree and the trail to the node the source would return; `Registration.UseAt` and `Registration.RouteAt` stand for calls on a returned node.
- Concurrency is not modelled: the source is unsynchronised and meant to be built before serving.
- `LoadConfig` and `LoadConfigWithEnv` are not modelled, because they read files and the environment.
- Go's fixed-width `int` is not modelled. Configuration fields are unbounded integers, which is safe because `Validate` only compares them.
- The `len(segments) == 0` branch of `getPathSegment` is not modelled, because `strings.SplitN` never returns an empty slice.
- `ErrRouteMalformedPath` is declared (`RouteErrors.Sentinel`) but never produced, as in the source.
- Renaming a reused parameter or wildcard child is not modelled: the source keeps the name of the first registration, and so does the model (`Insert.AddRouteKeepsNodes`).
- Benchmarks are not modelled.
- The integer values behind the route kinds are not modelled: nothing in routing reads them, only which kind a node has.
- Insert.AddRoute: the source attaches a new child before descending into it; the model attaches it after, which is equivalent because insertion below a new node cannot fail (`Insert.NewSubtreeNeverRejects`).
- Match.FindFrom: its own contract states only that every failure is route-not-found. What it returns on success is stated by `Match.FindSound`, `Match.FindComplete` and `Match.FindPrefersHigherPriority`.
- Match.FindAsWritten: its own contract states only the error kind. Its relation to the intended lookup is `Match.AsWrittenDiffersOnlyInCaptures`.
- RoundTrip.FindAfterAddRoute: the round trip is stated for paths made only of static segments. With parameters or wildcards, lookup may legitimately pick a higher-priority route, which `Match.FindPrefersHigherPriority` covers.

## Findings

| source | as written | input that shows it | evidently intended | confidence | as-written member | corrected member |
|---|---|---|---|---|---|---|
| internal/routes/route.go:149-161 | the snapshot is taken with `maps.Copy(route.PathParams, originalPathParams)`, which copies the empty snapshot into the live captures instead of the reverse; after a failed parameter attempt the live captures are replaced by that still-empty map, so the wildcard fallback loses every capture made above | routes GET "/{a}/{b}/x" and GET "/{a}/*w"; lookup GET "/1/2" returns captures {w: "2"} | restore the captures held before the attempt, giving {a: "1", w: "2"} | not executed; high (the argument order of `maps.Copy` is destination first) | `Match.FindAsWritten`, `Match.AncestorCaptureLost` | `Match.FindFrom`, `Match.AncestorCaptureKept` |

=== FILE: config.dfy ===
/**
 * Server configuration: the defaults and the field validator. Loading
 * from files and the environment is not part of this model.
 */
module Config {
  import opened Results

  /** Timeouts are whole seconds. */
  datatype ServerConfig = ServerConfig(port: int, readTimeout: int, writeTimeout: int, idleTimeout: int)

  datatype Config = Config(server: ServerConfig)

  /** Why a configuration is refused. */
  datatype ConfigError = InvalidPort(port: int) | ReadTimeoutNotPositive | WriteTimeoutNotPositive

  /** The largest TCP port number. */
  const MaxPort := 65535

  predicate PortInRange(port: int) {
    0 < port <= MaxPort
  }

  /** A configuration the server can start with: a usable port and positive read and write timeouts. */
  predicate Acceptable(c: Config) {
    PortInRange(c.server.port) && c.server.readTimeout > 0 && c.server.writeTimeout > 0
  }

  /** The defaults: port 8080, ten-second read and write timeouts, a sixty-second idle timeout. */
  function DefaultConfig(): (c: Config)
    ensures c.server.port == 8080
    ensures c.server.readTimeout == 10 && c.server.writeTimeout == 10
    ensures c.server.idleTimeout == 60
    ensures Acceptable(c)
  {
    Config(ServerConfig(8080, 10, 10, 60))
  }

  /**
   * Checks the fields in order, port first, then read timeout, then write
   * timeout, and reports the first that is wrong.
   */
  function Validate(c: Config): (r: Option<ConfigError>)
    ensures r.None? <==> Acceptable(c)
    ensures !PortInRange(c.server.port) ==> r == Some(InvalidPort(c.server.port))
    ensures PortInRange(c.server.port) && c.server.readTimeout <= 0 ==> r == Some(ReadTimeoutNotPositive)
    ensures r == Some(WriteTimeoutNotPositive) <==> PortInRange(c.server.port) && c.server.readTimeout > 0 && c.server.writeTimeout <= 0
  {
    if c.server.port <= 0 || c.server.port > 65535 then Some(InvalidPort(c.server.port))
    else if c.server.readTimeout <= 0 then Some(ReadTimeoutNotPositive)
    else if c.server.writeTimeout <= 0 then Some(WriteTimeoutNotPositive)
    else None
  }

  /** The defaults pass validation. */
  lemma DefaultConfigValid()
    ensures Validate(DefaultConfig()) == None
  {
  }

  /** The idle timeout is never looked at: any value, negative included, leaves the verdict unchanged. */
  lemma IdleTimeoutIgnored(c: Config, idle: int)
    ensures Validate(Config(c.server.(idleTimeout := idle))) == Validate(c)
  {
  }

  /** A bad port is reported whatever else is wrong. */
  lemma PortReportedFirst(c: Config)
    requires !PortInRange(c.server.port)
    requires c.server.readTimeout <= 0 && c.server.writeTimeout <= 0
    ensures Validate(c) == Some(InvalidPort(c.server.port))
  {
  }

  /** The text in front of the port in a port refusal. */
  const PortMessagePrefix := "invalid server port: "

  /** The message each refusal carries; a port refusal ends with the port in decimal. */
  function Message(e: ConfigError): (r: string)
    ensures e.InvalidPort? ==> PortMessagePrefix <= r && ReadDecimal(r[|PortMessagePrefix|..]) == e.port
    ensures e.ReadTimeoutNotPositive? ==> r == "read timeout must be positive"
    ensures e.WriteTimeoutNotPositive? ==> r == "write timeout must be positive"
  {
    match e
    case InvalidPort(port) =>
      DecimalRoundTrip(port);
      assert (PortMessagePrefix + Decimal(port))[|PortMessagePrefix|..] == Decimal(port);
      PortMessagePrefix + Decimal(port)
    case ReadTimeoutNotPositive => "read timeout must be positive"
    case WriteTimeoutNotPositive => "write timeout must be positive"
  }

  /** Distinct refusals carry distinct messages; in particular the message tells two bad ports apart. */
  lemma ConfigMessagesDistinct(a: ConfigError, b: ConfigError)
    requires a != b
    ensures Message(a) != Message(b)
  {
  }

  /** The digit character for a value in 0..9. */
  function DigitChar(d: int): char
    requires 0 <= d < 10
  {
    ('0' as int + d) as char
  }

  /** `n` in decimal, as `%d` renders it: no leading zeros, and "0" for zero. */
  function Digits(n: nat): string
    decreases n
  {
    if n < 10 then [DigitChar(n)] else Digits(n / 10) + [DigitChar(n % 10)]
  }

  /** A signed integer in decimal, with a minus sign in front of a negative one. */
  function Decimal(n: int): string {
    if n < 0 then "-" + Digits(-n) else Digits(n)
  }

  /** The value of a string of decimal digits, most significant first. */
  function DigitsValue(s: string): int {
    if s == [] then 0 else DigitsValue(s[..|s| - 1]) * 10 + (s[|s| - 1] as int - '0' as int)
  }

  /** Reads back an optionally signed decimal. */
  function ReadDecimal(s: string): int {
    if s != [] && s[0] == '-' then -DigitsValue(s[1..]) else DigitsValue(s)
  }

  /** The digits of `n` are digits, and read back as `n`. */
  lemma {:induction false} DigitsRoundTrip(n: nat)
    ensures Digits(n) != [] && '0' <= Digits(n)[0] <= '9'
    ensures DigitsValue(Digits(n)) == n
    decreases n
  {
    if n >= 10 {
      DigitsRoundTrip(n / 10);
      var d := Digits(n);
      assert d[..|d| - 1] == Digits(n / 10);
    }
  }

  /** `ReadDecimal` inverts `Decimal`. */
  lemma DecimalRoundTrip(n: int)
    ensures ReadDecimal(Decimal(n)) == n
  {
    if n < 0 {
      DigitsRoundTrip(-n);
      assert ("-" + Digits(-n))[1..] == Digits(-n);
    } else {
      DigitsRoundTrip(n);
    }
  }
}

=== FILE: errors.dfy ===
/**
 * The routing error taxonomy: three sentinel errors and the wrapper that
 * records which method and path a failed registration or lookup was about.
 */
module RouteErrors {
  import opened Results

  datatype Sentinel = RouteNotFound | RouteAlreadyExists | RouteMalformedPath

  /** The message each sentinel was created with. */
  function Message(e: Sentinel): string {
    match e
    case RouteNotFound => "route not found"
    case RouteAlreadyExists => "route already exists"
    case RouteMalformedPath => "malformed path"
  }

  /** Distinct sentinels carry distinct messages, so a message identifies its sentinel. */
  lemma MessagesDistinct()
    ensures forall a: Sentinel, b: Sentinel :: a != b ==> Message(a) != Message(b)
  {
  }

  /** A failure annotated with the method and the path as the caller passed them. */
  datatype RouteError = RouteError(verb: string, path: string, err: Sentinel)

  function NewRouteError(verb: string, path: string, err: Sentinel): (e: RouteError)
    ensures Unwrap(e) == err
    ensures e.verb == verb && e.path == path
  {
    RouteError(verb, path, err)
  }

  /** The wrapped sentinel, which is what `errors.Is` compares against. */
  function Unwrap(e: RouteError): Sentinel {
    e.err
  }

  const Prefix: string := "route error: "

  /**
   * The rendered message. Every field sits at an offset computable from the
   * lengths of the fields before it, so each can be read back from the text.
   */
  function ErrorString(e: RouteError): (s: string)
    ensures |s| == |Prefix| + |e.verb| + 1 + |e.path| + 2 + |Message(e.err)|
    ensures s[..|Prefix|] == "route error: "
    ensures s[|Prefix|..|Prefix| + |e.verb|] == e.verb
    ensures s[|Prefix| + |e.verb|] == ' '
    ensures s[|Prefix| + |e.verb| + 1..|Prefix| + |e.verb| + 1 + |e.path|] == e.path
    ensures s[|s| - |Message(e.err)| - 2..|s| - |Message(e.err)|] == ": "
    ensures s[|s| - |Message(e.err)|..] == Message(e.err)
  {
    var s := Prefix + e.verb + " " + e.path + ": " + Message(e.err);
    assert s == Prefix + (e.verb + (" " + (e.path + (": " + Message(e.err)))));
    s
  }

  /** Recognises which sentinel a rendered message ends with. */
  function SentinelOf(s: string): Option<Sentinel> {
    if EndsWith(s, Message(RouteNotFound)) then Some(RouteNotFound)
    else if EndsWith(s, Message(RouteAlreadyExists)) then Some(RouteAlreadyExists)
    else if EndsWith(s, Message(RouteMalformedPath)) then Some(RouteMalformedPath)
    else None
  }

  predicate EndsWith(s: string, suffix: string) {
    |suffix| <= |s| && s[|s| - |suffix|..] == suffix
  }

  /** The wrapped sentinel survives rendering: it can be recovered from the message text. */
  lemma SentinelOfErrorString(e: RouteError)
    ensures SentinelOf(ErrorString(e)) == Some(e.err)
  {
    var s := ErrorString(e);
    var m := Message(e.err);
    assert s[|s| - |m|..] == m;
    assert s[|s| - 1] == m[|m| - 1];
  }

  /** Not-found and already-exists render differently for the same verb and path. */
  lemma ErrorStringsDistinguishSentinels(verb: string, path: string, a: Sentinel, b: Sentinel)
    requires a != b
    ensures ErrorString(NewRouteError(verb, path, a)) != ErrorString(NewRouteError(verb, path, b))
  {
    SentinelOfErrorString(NewRouteError(verb, path, a));
    SentinelOfErrorString(NewRouteError(verb, path, b));
  }
}

=== FILE: find.dfy ===
/**
 * Resolution: matching a method and a path against the tree.
 *
 * Lookup descends one segment at a time. A static child whose text equals
 * the segment is taken, and lookup never comes back out of it. Otherwise
 * the parameter child is tried with its name bound to the segment; if that
 * attempt fails, the captures are restored to what they were before it and
 * the wildcard child is tried, binding its name to the segment together
 * with the rest of the path, slashes included, and ending there.
 */
module Match {
  import opened Results
  import opened Tree
  import opened Segments
  import opened RouteErrors

  /** A successful match: handler, middleware chain, captures, and the trail to the matched node. */
  datatype Resolved = Resolved(handler: Handler, middlewares: seq<Middleware>, params: map<string, string>, trail: seq<Step>)

  /** The matched route handed to the dispatcher. */
  datatype Route = Route(verb: string, path: string, handler: Handler, middlewares: seq<Middleware>, pathParams: map<string, string>)

  /** Records that the match went through `s` first. */
  function Via(s: Step, r: Result<Resolved, Sentinel>): Result<Resolved, Sentinel> {
    match r
    case Ok(m) => Ok(m.(trail := [s] + m.trail))
    case Err(e) => Err(e)
  }

  /**
   * The lookup below `n`, with `params` the captures made so far and
   * `above` the middleware of the nodes already passed, outermost first.
   */
  function FindFrom(n: Node, verb: string, path: string, params: map<string, string>, above: seq<Middleware>): (r: Result<Resolved, Sentinel>)
    ensures r.Err? ==> r.error == RouteNotFound
    decreases |path|
  {
    if Consumed(path) then
      if verb in n.handlers then Ok(Resolved(n.handlers[verb], above + n.middlewares, params, []))
      else Err(RouteNotFound)
    else
      var sr := NextSegment(path);
      var segment := sr.0;
      var remaining := sr.1;
      var chain := above + n.middlewares;
      match Child(n, StaticStep(segment))
      case Some(c) => Via(StaticStep(segment), FindFrom(c, verb, remaining, params, chain))
      case None =>
        var viaParam :=
          if n.param.Some? then FindFrom(n.param.value, verb, remaining, params[n.param.value.paramName := segment], chain)
          else Err(RouteNotFound);
        if viaParam.Ok? then Via(ParamStep, viaParam)
        else if n.wildcard.Some? then
          var w := n.wildcard.value;
          Via(WildcardStep, FindFrom(w, verb, "", params[w.paramName := segment + remaining], chain))
        else Err(RouteNotFound)
  }

  /**
   * The trails a lookup of `path` may follow from `n`, whatever handlers
   * are bound, and the captures each produces from `before`: a static
   * child with the segment's text must be taken; when there is none, the
   * parameter child may be taken, binding its name to the segment, or the
   * wildcard child, binding its name to the segment and everything after
   * it and consuming the whole path.
   */
  predicate Admits(n: Node, path: string, trail: seq<Step>, before: map<string, string>, after: map<string, string>)
    decreases |path|
  {
    if Consumed(path) then trail == [] && after == before
    else
      var sr := NextSegment(path);
      var segment := sr.0;
      var remaining := sr.1;
      && trail != []
      && match trail[0]
        case StaticStep(text) =>
          && text == segment
          && Child(n, trail[0]).Some?
          && Admits(Child(n, trail[0]).value, remaining, trail[1..], before, after)
        case ParamStep =>
          && Child(n, StaticStep(segment)).None?
          && n.param.Some?
          && Admits(n.param.value, remaining, trail[1..], before[n.param.value.paramName := segment], after)
        case WildcardStep =>
          && Child(n, StaticStep(segment)).None?
          && n.wildcard.Some?
          && trail[1..] == []
          && after == before[n.wildcard.value.paramName := segment + remaining]
  }

  /**
   * Match `m` is explained by the tree below `n`: it follows an admissible
   * trail, ends at a node that binds the method, returns that node's
   * handler, and its middleware chain is `above` followed by every local
   * list from `n` down to the matched node, outermost first.
   */
  predicate Explains(n: Node, verb: string, path: string, params: map<string, string>, above: seq<Middleware>, m: Resolved) {
    && Admits(n, path, m.trail, params, m.params)
    && verb in HandlersAt(n, m.trail)
    && m.handler == HandlersAt(n, m.trail)[verb]
    && m.middlewares == above + ChainAlong(n, m.trail)
  }

  /**
   * One step down: the handler and middleware chain found below child `c`
   * are those of the trail extended by the step, seen from `n`.
   */
  lemma {:induction false} ExplainsStep(n: Node, verb: string, above: seq<Middleware>, s: Step, m: Resolved)
    requires Child(n, s).Some?
    requires verb in HandlersAt(Child(n, s).value, m.trail) && m.handler == HandlersAt(Child(n, s).value, m.trail)[verb]
    requires m.middlewares == (above + n.middlewares) + ChainAlong(Child(n, s).value, m.trail)
    ensures verb in HandlersAt(n, [s] + m.trail) && m.handler == HandlersAt(n, [s] + m.trail)[verb]
    ensures m.middlewares == above + ChainAlong(n, [s] + m.trail)
  {
    DescendCons(n, s, m.trail);
    var local, below := n.middlewares, ChainAlong(Child(n, s).value, m.trail);
    assert above + (local + below) == (above + local) + below;
  }

  /** A static child with the segment's text may be taken, and then must be. */
  lemma {:induction false} AdmitsViaStatic(n: Node, path: string, params: map<string, string>, trail: seq<Step>, after: map<string, string>)
    requires !Consumed(path)
    requires Child(n, StaticStep(NextSegment(path).0)).Some?
    requires Admits(Child(n, StaticStep(NextSegment(path).0)).value, NextSegment(path).1, trail, params, after)
    ensures Admits(n, path, [StaticStep(NextSegment(path).0)] + trail, params, after)
  {
    var t := [StaticStep(NextSegment(path).0)] + trail;
    assert t[1..] == trail;
  }

  /** Without a static match, the parameter child may be taken, binding its name to the segment. */
  lemma {:induction false} AdmitsViaParam(n: Node, path: string, params: map<string, string>, trail: seq<Step>, after: map<string, string>)
    requires !Consumed(path)
    requires Child(n, StaticStep(NextSegment(path).0)).None? && n.param.Some?
    requires Admits(n.param.value, NextSegment(path).1, trail, params[n.param.value.paramName := NextSegment(path).0], after)
    ensures Admits(n, path, [ParamStep] + trail, params, after)
  {
    var t := [ParamStep] + trail;
    assert t[1..] == trail;
  }

  /** Without a static match, the wildcard child may be taken, binding its name to the rest of the path. */
  lemma {:induction false} AdmitsViaWildcard(n: Node, path: string, params: map<string, string>)
    requires !Consumed(path)
    requires Child(n, StaticStep(NextSegment(path).0)).None? && n.wildcard.Some?
    ensures Admits(n, path, [WildcardStep], params, params[n.wildcard.value.paramName := NextSegment(path).0 + NextSegment(path).1])
  {
    assert [WildcardStep][1..] == [];
  }

  /** Soundness: every match lookup returns is explained by the tree. */
  lemma {:induction false} FindSound(n: Node, verb: string, path: string, params: map<string, string>, above: seq<Middleware>)
    requires FindFrom(n, verb, path, params, above).Ok?
    ensures Explains(n, verb, path, params, above, FindFrom(n, verb, path, params, above).value)
    decreases |path|
  {
    if !Consumed(path) {
      var sr := NextSegment(path);
      var segment := sr.0;
      var remaining := sr.1;
      var chain := above + n.middlewares;
      if Child(n, StaticStep(segment)).Some? {
        var c := Child(n, StaticStep(segment)).value;
        FindSound(c, verb, remaining, params, chain);
        var m := FindFrom(c, verb, remaining, params, chain).value;
        AdmitsViaStatic(n, path, params, m.trail, m.params);
        ExplainsStep(n, verb, above, StaticStep(segment), m);
      } else if n.param.Some? && FindFrom(n.param.value, verb, remaining, params[n.param.value.paramName := segment], chain).Ok? {
        var c := n.param.value;
        var inner := params[c.paramName := segment];
        FindSound(c, verb, remaining, inner, chain);
        var m := FindFrom(c, verb, remaining, inner, chain).value;
        AdmitsViaParam(n, path, params, m.trail, m.params);
        ExplainsStep(n, verb, above, ParamStep, m);
      } else {
        var c := n.wildcard.value;
        var inner := params[c.paramName := segment + remaining];
        FindAtConsumed(c, verb, "", inner, chain);
        var m := FindFrom(c, verb, "", inner, chain).value;
        AdmitsViaWildcard(n, path, params);
        assert [WildcardStep] + m.trail == [WildcardStep];
        ExplainsStep(n, verb, above, WildcardStep, m);
      }
    }
  }

  /** Completeness: if an admissible trail ends at a node binding the method, lookup succeeds. */
  lemma {:induction false} FindComplete(n: Node, verb: string, path: string, params: map<string, string>, above: seq<Middleware>, trail: seq<Step>, after: map<string, string>)
    requires Admits(n, path, trail, params, after)
    requires verb in HandlersAt(n, trail)
    ensures FindFrom(n, verb, path, params, above).Ok?
    decreases |path|
  {
    if !Consumed(path) {
      var sr := NextSegment(path);
      var segment := sr.0;
      var remaining := sr.1;
      var chain := above + n.middlewares;
      var first := trail[0];
      SplitFirst(trail);
      DescendCons(n, first, trail[1..]);
      var c := Child(n, first).value;
      match first
      case StaticStep(_) =>
        FindComplete(c, verb, remaining, params, chain, trail[1..], after);
      case ParamStep =>
        FindComplete(c, verb, remaining, params[c.paramName := segment], chain, trail[1..], after);
      case WildcardStep =>
    }
  }

  /** Static steps rank before parameter steps, which rank before wildcard steps. */
  function Rank(s: Step): nat {
    match s
    case StaticStep(_) => 0
    case ParamStep => 1
    case WildcardStep => 2
  }

  /** Trail `a` is tried no later than trail `b`: lexicographic order by rank. */
  predicate TriedNoLater(a: seq<Step>, b: seq<Step>)
    decreases |a|
  {
    a == [] || (b != [] && (Rank(a[0]) < Rank(b[0]) || (a[0] == b[0] && TriedNoLater(a[1..], b[1..]))))
  }

  /** The order is decided by the first step that differs. */
  lemma {:induction false} TriedNoLaterCons(s: Step, t: Step, a: seq<Step>, b: seq<Step>)
    requires Rank(s) < Rank(t) || (s == t && TriedNoLater(a, b))
    ensures TriedNoLater([s] + a, [t] + b)
  {
    assert ([s] + a)[1..] == a && ([t] + b)[1..] == b;
  }

  /** Lookup below a node that has a static child for the next segment. */
  lemma {:induction false} FindAtStatic(n: Node, verb: string, path: string, params: map<string, string>, above: seq<Middleware>)
    requires !Consumed(path)
    requires Child(n, StaticStep(NextSegment(path).0)).Some?
    ensures FindFrom(n, verb, path, params, above)
         == Via(StaticStep(NextSegment(path).0), FindFrom(Child(n, StaticStep(NextSegment(path).0)).value, verb, NextSegment(path).1, params, above + n.middlewares))
  {
  }

  /** Lookup below a node that has a parameter child and no static child for the next segment. */
  lemma {:induction false} FindAtParam(n: Node, verb: string, path: string, params: map<string, string>, above: seq<Middleware>)
    requires !Consumed(path)
    requires Child(n, StaticStep(NextSegment(path).0)).None?
    requires n.param.Some?
    requires FindFrom(n.param.value, verb, NextSegment(path).1, params[n.param.value.paramName := NextSegment(path).0], above + n.middlewares).Ok?
    ensures FindFrom(n, verb, path, params, above)
         == Via(ParamStep, FindFrom(n.param.value, verb, NextSegment(path).1, params[n.param.value.paramName := NextSegment(path).0], above + n.middlewares))
  {
  }

  /** A wildcard step of lookup, if any, is the last one and is taken only after the parameter child failed. */
  lemma {:induction false} FindAtWildcard(n: Node, verb: string, path: string, params: map<string, string>, above: seq<Middleware>)
    requires !Consumed(path)
    requires FindFrom(n, verb, path, params, above).Ok?
    requires FindFrom(n, verb, path, params, above).value.trail[0] == WildcardStep
    ensures Child(n, StaticStep(NextSegment(path).0)).None?
    ensures n.param.Some? ==> FindFrom(n.param.value, verb, NextSegment(path).1, params[n.param.value.paramName := NextSegment(path).0], above + n.middlewares).Err?
    ensures FindFrom(n, verb, path, params, above).value.trail == [WildcardStep]
  {
  }

  /**
   * When no static child matches and the parameter attempt fails, the
   * wildcard child is tried from the captures as they were before that
   * attempt, with its name bound to the segment and the rest of the path.
   */
  lemma {:induction false} FindFallsBackToWildcard(n: Node, verb: string, path: string, params: map<string, string>, above: seq<Middleware>)
    requires !Consumed(path)
    requires Child(n, StaticStep(NextSegment(path).0)).None?
    requires n.param.Some? ==> FindFrom(n.param.value, verb, NextSegment(path).1, params[n.param.value.paramName := NextSegment(path).0], above + n.middlewares).Err?
    requires n.wildcard.Some?
    ensures FindFrom(n, verb, path, params, above)
         == Via(WildcardStep, FindFrom(n.wildcard.value, verb, "", params[n.wildcard.value.paramName := NextSegment(path).0 + NextSegment(path).1], above + n.middlewares))
  {
  }

  /** Unfolding one step of an admissible trail. */
  lemma {:induction false} AdmitsStep(n: Node, path: string, trail: seq<Step>, before: map<string, string>, after: map<string, string>)
    requires !Consumed(path)
    requires Admits(n, path, trail, before, after)
    ensures trail != [] && Child(n, trail[0]).Some?
    ensures trail[0].StaticStep? ==> trail[0].text == NextSegment(path).0 && Admits(Child(n, trail[0]).value, NextSegment(path).1, trail[1..], before, after)
    ensures !trail[0].StaticStep? ==> Child(n, StaticStep(NextSegment(path).0)).None?
    ensures trail[0].ParamStep? ==> Admits(n.param.value, NextSegment(path).1, trail[1..], before[n.param.value.paramName := NextSegment(path).0], after)
    ensures trail[0].WildcardStep? ==> trail == [WildcardStep]
  {
  }

  /** A lookup that does not stop at `n` takes at least one step. */
  lemma {:induction false} FindTakesStep(n: Node, verb: string, path: string, params: map<string, string>, above: seq<Middleware>)
    requires !Consumed(path)
    requires FindFrom(n, verb, path, params, above).Ok?
    ensures FindFrom(n, verb, path, params, above).value.trail != []
  {
  }

  /**
   * Priority: of all admissible trails that end at a node binding the
   * method, lookup returns one that is tried no later than any other, so a
   * parameter match always wins over a wildcard match at the same level.
   */
  lemma {:induction false} FindPrefersHigherPriority(n: Node, verb: string, path: string, params: map<string, string>, above: seq<Middleware>, trail: seq<Step>, after: map<string, string>)
    requires FindFrom(n, verb, path, params, above).Ok?
    requires Admits(n, path, trail, params, after)
    requires verb in HandlersAt(n, trail)
    ensures TriedNoLater(FindFrom(n, verb, path, params, above).value.trail, trail)
    decreases |path|, 1
  {
    if !Consumed(path) {
      AdmitsStep(n, path, trail, params, after);
      match trail[0]
      case StaticStep(_) => PriorityStatic(n, verb, path, params, above, trail, after);
      case ParamStep => PriorityParam(n, verb, path, params, above, trail, after);
      case WildcardStep => PriorityWildcard(n, verb, path, params, above, trail, after);
    }
  }

  lemma {:induction false} PriorityStatic(n: Node, verb: string, path: string, params: map<string, string>, above: seq<Middleware>, trail: seq<Step>, after: map<string, string>)
    requires !Consumed(path)
    requires FindFrom(n, verb, path, params, above).Ok?
    requires trail != [] && trail[0].StaticStep? && trail[0].text == NextSegment(path).0 && Child(n, trail[0]).Some?
    requires Admits(Child(n, trail[0]).value, NextSegment(path).1, trail[1..], params, after)
    requires verb in HandlersAt(n, trail)
    ensures TriedNoLater(FindFrom(n, verb, path, params, above).value.trail, trail)
    decreases |path|, 0
  {
    var first, tail := trail[0], trail[1..];
    SplitFirst(trail);
    var c := Child(n, first).value;
    var remaining := NextSegment(path).1;
    var chain := above + n.middlewares;
    assert verb in HandlersAt(c, tail) by {
      DescendCons(n, first, tail);
    }
    var found := FindFrom(c, verb, remaining, params, chain);
    assert FindFrom(n, verb, path, params, above) == Via(first, found) by {
      FindAtStatic(n, verb, path, params, above);
    }
    assert TriedNoLater(found.value.trail, tail) by {
      FindPrefersHigherPriority(c, verb, remaining, params, chain, tail, after);
    }
    TriedNoLaterCons(first, first, found.value.trail, tail);
  }

  lemma {:induction false} PriorityParam(n: Node, verb: string, path: string, params: map<string, string>, above: seq<Middleware>, trail: seq<Step>, after: map<string, string>)
    requires !Consumed(path)
    requires FindFrom(n, verb, path, params, above).Ok?
    requires trail != [] && trail[0].ParamStep? && n.param.Some?
    requires Child(n, StaticStep(NextSegment(path).0)).None?
    requires Admits(n.param.value, NextSegment(path).1, trail[1..], params[n.param.value.paramName := NextSegment(path).0], after)
    requires verb in HandlersAt(n, trail)
    ensures TriedNoLater(FindFrom(n, verb, path, params, above).value.trail, trail)
    decreases |path|, 0
  {
    var tail := trail[1..];
    SplitFirst(trail);
    var c := n.param.value;
    var remaining := NextSegment(path).1;
    var chain := above + n.middlewares;
    var inner := params[c.paramName := NextSegment(path).0];
    assert verb in HandlersAt(c, tail) by {
      DescendCons(n, ParamStep, tail);
    }
    var found := FindFrom(c, verb, remaining, inner, chain);
    assert FindFrom(n, verb, path, params, above) == Via(ParamStep, found) by {
      FindComplete(c, verb, remaining, inner, chain, tail, after);
      FindAtParam(n, verb, path, params, above);
    }
    assert TriedNoLater(found.value.trail, tail) by {
      FindPrefersHigherPriority(c, verb, remaining, inner, chain, tail, after);
    }
    TriedNoLaterCons(ParamStep, ParamStep, found.value.trail, tail);
  }

  lemma {:induction false} PriorityWildcard(n: Node, verb: string, path: string, params: map<string, string>, above: seq<Middleware>, trail: seq<Step>, after: map<string, string>)
    requires !Consumed(path)
    requires FindFrom(n, verb, path, params, above).Ok?
    requires trail == [WildcardStep]
    ensures TriedNoLater(FindFrom(n, verb, path, params, above).value.trail, trail)
  {
    var m := FindFrom(n, verb, path, params, above).value;
    FindTakesStep(n, verb, path, params, above);
    if m.trail[0] == WildcardStep {
      FindAtWildcard(n, verb, path, params, above);
      TriedNoLaterCons(WildcardStep, WildcardStep, [], []);
    } else {
      SplitFirst(m.trail);
      TriedNoLaterCons(m.trail[0], WildcardStep, m.trail[1..], []);
    }
  }

  /** Two admissible readings of the same trail capture the same values. */
  lemma {:induction false} AdmitsDeterminesCaptures(n: Node, path: string, trail: seq<Step>, before: map<string, string>, after1: map<string, string>, after2: map<string, string>)
    requires Admits(n, path, trail, before, after1)
    requires Admits(n, path, trail, before, after2)
    ensures after1 == after2
    decreases |path|
  {
    if !Consumed(path) {
      AdmitsStep(n, path, trail, before, after1);
      var c := Child(n, trail[0]).value;
      var remaining := NextSegment(path).1;
      match trail[0]
      case StaticStep(_) => AdmitsDeterminesCaptures(c, remaining, trail[1..], before, after1, after2);
      case ParamStep => AdmitsDeterminesCaptures(c, remaining, trail[1..], before[c.paramName := NextSegment(path).0], after1, after2);
      case WildcardStep =>
    }
  }

  /**
   * When nothing of the path is left, lookup ends at `n`: it succeeds
   * exactly when `n` binds the method, even if the structure matched, and
   * then returns that handler and the captures made so far.
   */
  lemma {:induction false} FindAtConsumed(n: Node, verb: string, path: string, params: map<string, string>, above: seq<Middleware>)
    requires Consumed(path)
    ensures FindFrom(n, verb, path, params, above).Ok? <==> verb in n.handlers
    ensures FindFrom(n, verb, path, params, above).Ok? ==>
      var m := FindFrom(n, verb, path, params, above).value;
      m.handler == n.handlers[verb] && m.params == params && m.trail == [] && m.middlewares == above + n.middlewares
  {
  }

  /**
   * A static child whose text equals the segment commits the lookup: the
   * outcome is that child's outcome, so a miss below it is a miss even
   * when the parameter or wildcard child would have matched.
   */
  lemma StaticMatchCommits(n: Node, verb: string, path: string, params: map<string, string>, above: seq<Middleware>)
    requires !Consumed(path)
    requires Child(n, StaticStep(NextSegment(path).0)).Some?
    ensures var c := Child(n, StaticStep(NextSegment(path).0)).value;
      var below := FindFrom(c, verb, NextSegment(path).1, params, above + n.middlewares);
      && (FindFrom(n, verb, path, params, above).Ok? <==> below.Ok?)
      && (below.Ok? ==>
            var m := FindFrom(n, verb, path, params, above).value;
            && m.trail == [StaticStep(NextSegment(path).0)] + below.value.trail
            && m.handler == below.value.handler
            && m.params == below.value.params)
  {
    FindAtStatic(n, verb, path, params, above);
  }

  /**
   * The parameter child is tried before the wildcard: when a route through
   * the parameter child binds the method, lookup takes the parameter
   * child, with its name bound to the segment.
   */
  lemma ParamBeforeWildcard(n: Node, verb: string, path: string, params: map<string, string>, above: seq<Middleware>, trail: seq<Step>, after: map<string, string>)
    requires !Consumed(path)
    requires Admits(n, path, trail, params, after)
    requires trail[0] == ParamStep
    requires verb in HandlersAt(n, trail)
    ensures FindFrom(n, verb, path, params, above).Ok?
    ensures FindFrom(n, verb, path, params, above).value.trail[0] == ParamStep
  {
    FindComplete(n, verb, path, params, above, trail, after);
    AdmitsStep(n, path, trail, params, after);
    FindTakesStep(n, verb, path, params, above);
    FindPrefersHigherPriority(n, verb, path, params, above, trail, after);
    FindSound(n, verb, path, params, above);
    AdmitsStep(n, path, FindFrom(n, verb, path, params, above).value.trail, params, FindFrom(n, verb, path, params, above).value.params);
  }

  /**
   * A wildcard match binds the wildcard's name to the segment followed by
   * the rest of the path, slashes kept (so the capture starts with a slash
   * only when the segment is empty, as for "//x"), on top of the
   * captures made before this level (a failed parameter attempt leaves no
   * trace), and ends at the wildcard node's own handler.
   */
  lemma WildcardFallbackUsesSnapshot(n: Node, verb: string, path: string, params: map<string, string>, above: seq<Middleware>)
    requires !Consumed(path)
    requires FindFrom(n, verb, path, params, above).Ok?
    requires FindFrom(n, verb, path, params, above).value.trail[0] == WildcardStep
    ensures n.wildcard.Some?
    ensures var m := FindFrom(n, verb, path, params, above).value;
      var w := n.wildcard.value;
      && m.params == params[w.paramName := NextSegment(path).0 + NextSegment(path).1]
      && m.trail == [WildcardStep]
      && verb in w.handlers && m.handler == w.handlers[verb]
  {
    FindSound(n, verb, path, params, above);
    var m := FindFrom(n, verb, path, params, above).value;
    AdmitsStep(n, path, m.trail, params, m.params);
    DescendCons(n, WildcardStep, []);
  }

  /** A leading slash is optional: "users" and "/users" are looked up alike. */
  lemma FindLeadingSlashOptional(n: Node, verb: string, path: string, params: map<string, string>, above: seq<Middleware>)
    requires path != "" && path[0] != '/'
    ensures FindFrom(n, verb, "/" + path, params, above) == FindFrom(n, verb, path, params, above)
  {
    NextSegmentIgnoresLeadingSlash(path);
  }

  /**
   * The public lookup from the root: method and path are reported exactly
   * as given, and a miss is wrapped with that method and path.
   */
  function Find(root: Node, verb: string, path: string): (r: Result<Route, RouteError>)
    ensures r.Ok? ==> r.value.verb == verb && r.value.path == path
    ensures r.Err? ==> r.error == NewRouteError(verb, path, RouteNotFound)
  {
    match FindFrom(root, verb, path, map[], [])
    case Err(e) => Err(NewRouteError(verb, path, e))
    case Ok(m) => Ok(Route(verb, path, m.handler, m.middlewares, m.params))
  }

  /** Some admissible trail for `path` ends at a node that binds the method. */
  ghost predicate RouteExists(n: Node, verb: string, path: string, params: map<string, string>) {
    exists trail, after :: Admits(n, path, trail, params, after) && verb in HandlersAt(n, trail)
  }

  /** Lookup succeeds exactly when some admissible trail ends at a node binding the method. */
  lemma FindFromSucceedsIff(n: Node, verb: string, path: string, params: map<string, string>, above: seq<Middleware>)
    ensures FindFrom(n, verb, path, params, above).Ok? <==> RouteExists(n, verb, path, params)
  {
    if RouteExists(n, verb, path, params) {
      var trail, after :| Admits(n, path, trail, params, after) && verb in HandlersAt(n, trail);
      FindComplete(n, verb, path, params, above, trail, after);
    }
    if FindFrom(n, verb, path, params, above).Ok? {
      FindSound(n, verb, path, params, above);
    }
  }

  /** From the root, the public lookup succeeds exactly when a route for the method matches the path. */
  lemma FindSucceedsIff(root: Node, verb: string, path: string)
    ensures Find(root, verb, path).Ok? <==> RouteExists(root, verb, path, map[])
  {
    FindFromSucceedsIff(root, verb, path, map[], []);
  }

  /**
   * The route found from the root carries the handler of the node its
   * trail ends at, the captures of that trail, and the middleware of every
   * node from the root down, root first.
   */
  lemma FindExplained(root: Node, verb: string, path: string)
    requires Find(root, verb, path).Ok?
    ensures var r := Find(root, verb, path).value;
      exists trail ::
        && Admits(root, path, trail, map[], r.pathParams)
        && verb in HandlersAt(root, trail)
        && r.handler == HandlersAt(root, trail)[verb]
        && r.middlewares == ChainAlong(root, trail)
  {
    FindSound(root, verb, path, map[], []);
    var m := FindFrom(root, verb, path, map[], []).value;
    assert [] + ChainAlong(root, m.trail) == ChainAlong(root, m.trail);
    var r := Find(root, verb, path).value;
    assert r.pathParams == m.params && r.handler == m.handler && r.middlewares == m.middlewares;
    assert Admits(root, path, m.trail, map[], r.pathParams);
  }

  /**
   * Lookup as the code is written: after a failed parameter attempt the
   * captures are replaced by an empty map instead of the snapshot taken
   * before it, so the wildcard fallback loses every capture made above.
   */
  function FindAsWritten(n: Node, verb: string, path: string, params: map<string, string>, above: seq<Middleware>): (r: Result<Resolved, Sentinel>)
    ensures r.Err? ==> r.error == RouteNotFound
    decreases |path|
  {
    if Consumed(path) then
      if verb in n.handlers then Ok(Resolved(n.handlers[verb], above + n.middlewares, params, []))
      else Err(RouteNotFound)
    else
      var sr := NextSegment(path);
      var segment := sr.0;
      var remaining := sr.1;
      var chain := above + n.middlewares;
      match Child(n, StaticStep(segment))
      case Some(c) => Via(StaticStep(segment), FindAsWritten(c, verb, remaining, params, chain))
      case None =>
        var viaParam :=
          if n.param.Some? then FindAsWritten(n.param.value, verb, remaining, params[n.param.value.paramName := segment], chain)
          else Err(RouteNotFound);
        if viaParam.Ok? then Via(ParamStep, viaParam)
        else if n.wildcard.Some? then
          var w := n.wildcard.value;
          var restored := if n.param.Some? then map[] else params;
          Via(WildcardStep, FindAsWritten(w, verb, "", restored[w.paramName := segment + remaining], chain))
        else Err(RouteNotFound)
  }

  /**
   * The defect touches only the captures: the code as written succeeds
   * and fails on the same inputs, along the same trail, with the same
   * handler and middleware chain.
   */
  lemma {:induction false} AsWrittenDiffersOnlyInCaptures(n: Node, verb: string, path: string, written: map<string, string>, intended: map<string, string>, above: seq<Middleware>)
    ensures FindAsWritten(n, verb, path, written, above).Ok? <==> FindFrom(n, verb, path, intended, above).Ok?
    ensures FindAsWritten(n, verb, path, written, above).Ok? ==>
      var a := FindAsWritten(n, verb, path, written, above).value;
      var b := FindFrom(n, verb, path, intended, above).value;
      a.trail == b.trail && a.handler == b.handler && a.middlewares == b.middlewares
    decreases |path|
  {
    if !Consumed(path) {
      var segment := NextSegment(path).0;
      var remaining := NextSegment(path).1;
      var chain := above + n.middlewares;
      if Child(n, StaticStep(segment)).Some? {
        AsWrittenDiffersOnlyInCaptures(Child(n, StaticStep(segment)).value, verb, remaining, written, intended, chain);
      } else {
        if n.param.Some? {
          var p := n.param.value;
          AsWrittenDiffersOnlyInCaptures(p, verb, remaining, written[p.paramName := segment], intended[p.paramName := segment], chain);
        }
        if n.wildcard.Some? {
          var w := n.wildcard.value;
          var restored := if n.param.Some? then map[] else written;
          AsWrittenDiffersOnlyInCaptures(w, verb, "", restored[w.paramName := segment + remaining], intended[w.paramName := segment + remaining], chain);
        }
      }
    }
  }

  /**
   * A tree holding the GET routes "/{a}/{b}/x" and "/{a}" followed by "*w": the lookup of GET "/1/2"
   * enters {b}, finds no handler there, and falls back to *w.
   */
  function CaptureTree(): Node {
    var x := Node("x", Static, "", map["GET" := HandlerFn(1)], [], [], None, None);
    var b := Node("{b}", Param, "b", map[], [], [x], None, None);
    var w := Node("*w", Wildcard, "w", map["GET" := HandlerFn(2)], [], [], None, None);
    var a := Node("{a}", Param, "a", map[], [], [], Some(b), Some(w));
    Node("", NoneKind, "", map[], [], [], Some(a), None)
  }

  /** The two lookups in the tree above take the same steps: "1" enters {a}, "2" enters {b} and fails there. */
  lemma CaptureTreeSteps()
    ensures NextSegment("/1/2") == ("1", "/2")
    ensures NextSegment("/2") == ("2", "")
  {
    GetPathSegmentExact("1", "2");
    GetPathSegmentExact("2", "");
    assert "/1/2"[1..] == "1" + "/" + "2";
    assert "/2"[1..] == "2";
  }

  /** In the intended lookup, the capture of {a} survives the failed attempt through {b}. */
  lemma AncestorCaptureKept()
    ensures FindFrom(CaptureTree(), "GET", "/1/2", map[], []) == Ok(Resolved(HandlerFn(2), [], map["a" := "1", "w" := "2"], [ParamStep, WildcardStep]))
  {
    CaptureTreeSteps();
    var a := CaptureTree().param.value;
    var b := a.param.value;
    var w := a.wildcard.value;
    var kept := map["a" := "1", "w" := "2"];
    assert FindFrom(b, "GET", "", map["a" := "1", "b" := "2"], []).Err?;
    var atW := FindFrom(w, "GET", "", kept, []);
    assert atW.Ok? && atW.value.handler == HandlerFn(2) && atW.value.middlewares == [] && atW.value.trail == [] && atW.value.params == kept;
    assert Child(a, StaticStep("2")).None?;
    assert "2" + "" == "2";
    assert CaptureTree().middlewares + a.middlewares == [];
    var atA := FindFrom(a, "GET", "/2", map["a" := "1"], []);
    assert atA == Via(WildcardStep, atW);
    var atRoot := FindFrom(CaptureTree(), "GET", "/1/2", map[], []);
    assert atRoot == Via(ParamStep, atA);
    assert atRoot.value.trail == [ParamStep, WildcardStep];
  }

  /** In the code as written, the capture of {a} is lost when lookup falls back to the wildcard. */
  lemma AncestorCaptureLost()
    ensures FindAsWritten(CaptureTree(), "GET", "/1/2", map[], []) == Ok(Resolved(HandlerFn(2), [], map["w" := "2"], [ParamStep, WildcardStep]))
  {
    CaptureTreeSteps();
    var a := CaptureTree().param.value;
    var b := a.param.value;
    var w := a.wildcard.value;
    var lost := map["w" := "2"];
    assert FindAsWritten(b, "GET", "", map["a" := "1", "b" := "2"], []).Err?;
    var atW := FindAsWritten(w, "GET", "", lost, []);
    assert atW.Ok? && atW.value.handler == HandlerFn(2) && atW.value.middlewares == [] && atW.value.trail == [] && atW.value.params == lost;
    assert Child(a, StaticStep("2")).None?;
    assert "2" + "" == "2";
    assert CaptureTree().middlewares + a.middlewares == [];
    var atA := FindAsWritten(a, "GET", "/2", map["a" := "1"], []);
    assert atA == Via(WildcardStep, atW);
    var atRoot := FindAsWritten(CaptureTree(), "GET", "/1/2", map[], []);
    assert atRoot == Via(ParamStep, atA);
    assert atRoot.value.trail == [ParamStep, WildcardStep];
  }
}

=== FILE: insert.dfy ===
/**
 * Insertion: adding a (method, path, handler, middleware) entry to the
 * tree, and what an insertion changes and keeps.
 */
module Insert {
  import opened Results
  import opened Tree
  import opened Segments
  import opened RouteErrors
  import opened Structure

  /** The tree after a registration, and the trail from its root to the destination node. */
  datatype Added = Added(tree: Node, dest: seq<Step>)

  /** Replacing one static child by a node with the same text leaves every lookup by text where it was. */
  lemma StaticIndexAfterUpdate(children: seq<Node>, i: nat, c: Node, text: string)
    requires i < |children| && c.path == children[i].path
    ensures StaticIndex(children[i := c], text) == StaticIndex(children, text)
  {
    var updated := children[i := c];
    assert forall m :: 0 <= m < |children| ==> (updated[m].path == text <==> children[m].path == text);
  }

  /** Appending a static child does not change where existing texts are found. */
  lemma StaticIndexAfterAppend(children: seq<Node>, c: Node, text: string)
    ensures StaticIndex(children, text) < |children| ==> StaticIndex(children + [c], text) == StaticIndex(children, text)
    ensures StaticIndex(children, text) == |children| && c.path == text ==> StaticIndex(children + [c], text) == |children|
  {
    var extended := children + [c];
    assert forall m :: 0 <= m < |children| ==> extended[m] == children[m];
    assert extended[|children|] == c;
  }

  /** The static children with `c` in the place of the child with `c`'s text, or appended if there is none. */
  function PutStatic(children: seq<Node>, c: Node): seq<Node> {
    var i := StaticIndex(children, c.path);
    if i < |children| then children[i := c] else children + [c]
  }

  /** `n` with `c` in the child slot `s` selects; the rest of `n` is untouched. */
  function SetChild(n: Node, s: Step, c: Node): Node {
    match s
    case StaticStep(_) => n.(statics := PutStatic(n.statics, c))
    case ParamStep => n.(param := Some(c))
    case WildcardStep => n.(wildcard := Some(c))
  }

  /** The child a segment leads into: the existing one in its slot, or a new node of the segment's kind. */
  function ChildFor(n: Node, segment: string): (c: Node)
    ensures c.path == segment || Child(n, StepOf(segment)).Some?
    ensures Child(n, StepOf(segment)).Some? ==> c == Child(n, StepOf(segment)).value
    ensures Child(n, StepOf(segment)).None? ==>
      c == NewRouteNode(segment, RouteTypeFromSegment(segment).0, RouteTypeFromSegment(segment).1)
  {
    var kind := RouteTypeFromSegment(segment);
    match Child(n, StepOf(segment))
    case Some(c) => c
    case None => NewRouteNode(segment, kind.0, kind.1)
  }

  /** A child put into slot `s` is found there again, and every other slot answers as before. */
  lemma SetChildLookup(n: Node, s: Step, c: Node, other: Step)
    requires s.StaticStep? ==> c.path == s.text
    ensures Child(SetChild(n, s, c), s) == Some(c)
    ensures other != s ==> Child(SetChild(n, s, c), other) == Child(n, other)
  {
    if s.StaticStep? {
      var i := StaticIndex(n.statics, c.path);
      if i < |n.statics| {
        StaticIndexAfterUpdate(n.statics, i, c, c.path);
        if other.StaticStep? {
          StaticIndexAfterUpdate(n.statics, i, c, other.text);
        }
      } else {
        StaticIndexAfterAppend(n.statics, c, c.path);
        assert (n.statics + [c])[|n.statics|] == c;
        if other.StaticStep? {
          StaticIndexAfterAppend(n.statics, c, other.text);
          var extended := n.statics + [c];
          assert forall m :: 0 <= m < |n.statics| ==> extended[m] == n.statics[m];
        }
      }
    }
  }

  /** Seen from `n`, the node at `[StepOf(segment)] + rest` is the node at `rest` below `ChildFor(n, segment)`. */
  lemma ChildForAt(n: Node, segment: string, rest: seq<Step>)
    ensures HandlersAt(n, [StepOf(segment)] + rest) == HandlersAt(ChildFor(n, segment), rest)
    ensures MiddlewaresAt(n, [StepOf(segment)] + rest) == MiddlewaresAt(ChildFor(n, segment), rest)
  {
    var kind := RouteTypeFromSegment(segment);
    DescendCons(n, StepOf(segment), rest);
    FreshNodeIsLeaf(segment, kind.0, kind.1, rest);
  }

  /**
   * Inserts the route below `n`. When the path is consumed, `n` is the
   * destination: a method already bound there is rejected, otherwise the
   * route's middleware is appended to the node's own list and the handler
   * bound. Otherwise the next segment's kind selects the parameter slot, the
   * wildcard slot, or the static child with that text; the child found
   * there is reused (whatever name the new segment binds) or a new node is
   * made, and insertion continues in it. The source attaches a new child
   * before descending; attaching it after is the same, because insertion
   * below a new node cannot fail (`NewSubtreeNeverRejects`).
   */
  function AddRoute(n: Node, verb: string, path: string, handler: Handler, mws: seq<Middleware>): (r: Result<Added, Sentinel>)
    ensures r.Err? ==> r.error == RouteAlreadyExists
    ensures r.Ok? ==> r.value.dest == StepsOf(path)
    ensures r.Ok? ==> r.value.tree.path == n.path && r.value.tree.routeType == n.routeType && r.value.tree.paramName == n.paramName
    decreases |path|
  {
    if Consumed(path) then
      if verb in n.handlers then Err(RouteAlreadyExists)
      else Ok(Added(n.(middlewares := n.middlewares + mws, handlers := n.handlers[verb := handler]), []))
    else
      var sr := NextSegment(path);
      var step := StepOf(sr.0);
      match AddRoute(ChildFor(n, sr.0), verb, sr.1, handler, mws)
      case Err(e) => Err(e)
      case Ok(a) => Ok(Added(SetChild(n, step, a.tree), [step] + a.dest))
  }

  /** Registration fails exactly when the destination node already binds the method. */
  lemma {:induction false} AddRouteRejectsExactlyDuplicates(n: Node, verb: string, path: string, handler: Handler, mws: seq<Middleware>)
    ensures AddRoute(n, verb, path, handler, mws).Err? <==> verb in HandlersAt(n, StepsOf(path))
    decreases |path|
  {
    if !Consumed(path) {
      var sr := NextSegment(path);
      AddRouteRejectsExactlyDuplicates(ChildFor(n, sr.0), verb, sr.1, handler, mws);
      ChildForAt(n, sr.0, StepsOf(sr.1));
    }
  }

  /**
   * A successful registration binds the handler at the destination, keeps
   * the destination's other methods, and appends the route's middleware
   * after the destination's existing list.
   */
  lemma {:induction false} AddRouteBinds(n: Node, verb: string, path: string, handler: Handler, mws: seq<Middleware>)
    requires AddRoute(n, verb, path, handler, mws).Ok?
    ensures var a := AddRoute(n, verb, path, handler, mws).value;
      && Descend(a.tree, a.dest).Some?
      && HandlersAt(a.tree, a.dest) == HandlersAt(n, a.dest)[verb := handler]
      && MiddlewaresAt(a.tree, a.dest) == MiddlewaresAt(n, a.dest) + mws
    decreases |path|
  {
    if !Consumed(path) {
      var sr := NextSegment(path);
      var step := StepOf(sr.0);
      var child := ChildFor(n, sr.0);
      var sub := AddRoute(child, verb, sr.1, handler, mws).value;
      AddRouteBinds(child, verb, sr.1, handler, mws);
      ChildForAt(n, sr.0, sub.dest);
      SetChildLookup(n, step, sub.tree, step);
      DescendCons(SetChild(n, step, sub.tree), step, sub.dest);
    }
  }

  /** A child fits slot `s` when its kind and text are the ones that slot holds. */
  predicate FitsSlot(s: Step, c: Node) {
    match s
    case StaticStep(text) => IsStaticChild(c) && c.path == text
    case ParamStep => IsParamChild(c)
    case WildcardStep => IsWildcardChild(c)
  }

  lemma ChildForFits(n: Node, segment: string)
    requires Valid(n) && '/' !in segment
    ensures FitsSlot(StepOf(segment), ChildFor(n, segment)) && Valid(ChildFor(n, segment))
  {
  }

  lemma SetChildValid(n: Node, s: Step, c: Node)
    requires Valid(n) && Valid(c) && FitsSlot(s, c)
    ensures Valid(SetChild(n, s, c))
  {
    if s.StaticStep? {
      var i := StaticIndex(n.statics, c.path);
      var updated := PutStatic(n.statics, c);
      if i < |n.statics| {
        assert forall j :: 0 <= j < |n.statics| ==> updated[j].path == n.statics[j].path;
      } else {
        assert forall j :: 0 <= j < |n.statics| ==> updated[j] == n.statics[j];
        assert updated[|n.statics|] == c;
      }
    }
  }

  /** Insertion keeps every structural invariant: slot kinds, and distinct static texts. */
  lemma {:induction false} AddRoutePreservesValid(n: Node, verb: string, path: string, handler: Handler, mws: seq<Middleware>)
    requires Valid(n) && AddRoute(n, verb, path, handler, mws).Ok?
    ensures Valid(AddRoute(n, verb, path, handler, mws).value.tree)
    decreases |path|
  {
    if !Consumed(path) {
      var sr := NextSegment(path);
      var child := ChildFor(n, sr.0);
      ChildForFits(n, sr.0);
      AddRoutePreservesValid(child, verb, sr.1, handler, mws);
      SetChildValid(n, StepOf(sr.0), AddRoute(child, verb, sr.1, handler, mws).value.tree);
    }
  }

  /** The text, kind and bound name of a node: what insertion never alters. */
  predicate SameIdentity(a: Node, b: Node) {
    a.path == b.path && a.routeType == b.routeType && a.paramName == b.paramName
  }

  /** Re-filling one slot leaves every trail through another slot where it was. */
  lemma SetChildFramesOtherSlots(n: Node, s: Step, c: Node, first: Step, rest: seq<Step>)
    requires s.StaticStep? ==> c.path == s.text
    requires first != s
    ensures Descend(SetChild(n, s, c), [first] + rest) == Descend(n, [first] + rest)
  {
    SetChildLookup(n, s, c, first);
    DescendCons(n, first, rest);
    DescendCons(SetChild(n, s, c), first, rest);
  }

  /** Changing only a node's own handlers and middleware leaves every trail below it where it was. */
  lemma LocalChangeFramesChildren(n: Node, m: Node, trail: seq<Step>)
    requires m.statics == n.statics && m.param == n.param && m.wildcard == n.wildcard
    requires trail != []
    ensures Descend(m, trail) == Descend(n, trail)
  {
    assert Child(m, trail[0]) == Child(n, trail[0]);
  }

  /** Below the destination, a registration changes only the child slots of the nodes it passes. */
  lemma AddRouteKeepsPassedNodesLocal(n: Node, verb: string, path: string, handler: Handler, mws: seq<Middleware>)
    requires AddRoute(n, verb, path, handler, mws).Ok?
    requires !Consumed(path)
    ensures AddRoute(n, verb, path, handler, mws).value.tree.handlers == n.handlers
    ensures AddRoute(n, verb, path, handler, mws).value.tree.middlewares == n.middlewares
  {
    var sr := NextSegment(path);
    var sub := AddRoute(ChildFor(n, sr.0), verb, sr.1, handler, mws).value;
    assert AddRoute(n, verb, path, handler, mws).value.tree == SetChild(n, StepOf(sr.0), sub.tree);
  }

  /**
   * Every node that existed before a successful registration is still
   * there with the same text, kind and bound name, so a reused parameter or
   * wildcard child keeps the name of its first registration.
   */
  lemma {:induction false} AddRouteKeepsNodes(n: Node, verb: string, path: string, handler: Handler, mws: seq<Middleware>, trail: seq<Step>)
    requires AddRoute(n, verb, path, handler, mws).Ok?
    requires Descend(n, trail).Some?
    ensures var a := AddRoute(n, verb, path, handler, mws).value;
      && Descend(a.tree, trail).Some?
      && SameIdentity(Descend(a.tree, trail).value, Descend(n, trail).value)
    decreases |path|
  {
    var a := AddRoute(n, verb, path, handler, mws).value;
    if trail != [] {
      if Consumed(path) {
        LocalChangeFramesChildren(n, a.tree, trail);
      } else {
        var first := trail[0];
        var rest := trail[1..];
        SplitFirst(trail);
        var sr := NextSegment(path);
        var step := StepOf(sr.0);
        var child := ChildFor(n, sr.0);
        var sub := AddRoute(child, verb, sr.1, handler, mws).value;
        assert a.tree == SetChild(n, step, sub.tree);
        if first == step {
          DescendCons(n, first, rest);
          SetChildLookup(n, step, sub.tree, first);
          DescendCons(a.tree, first, rest);
          AddRouteKeepsNodes(child, verb, sr.1, handler, mws, rest);
        } else {
          SetChildFramesOtherSlots(n, step, sub.tree, first, rest);
        }
      }
    }
  }

  /** At the destination of a method it does not bind yet, a registration appends the middleware and binds the handler there. */
  lemma AddRouteHere(n: Node, verb: string, path: string, handler: Handler, mws: seq<Middleware>)
    requires Consumed(path) && verb !in n.handlers
    ensures AddRoute(n, verb, path, handler, mws) == Ok(Added(n.(middlewares := n.middlewares + mws, handlers := n.handlers[verb := handler]), []))
  {
  }

  /** With a segment left, a registration that succeeds in the next segment's child re-fills that child's slot. */
  lemma AddRouteThrough(n: Node, verb: string, path: string, handler: Handler, mws: seq<Middleware>, sub: Added)
    requires !Consumed(path)
    requires AddRoute(ChildFor(n, NextSegment(path).0), verb, NextSegment(path).1, handler, mws) == Ok(sub)
    ensures AddRoute(n, verb, path, handler, mws) == Ok(Added(SetChild(n, StepOf(NextSegment(path).0), sub.tree), [StepOf(NextSegment(path).0)] + sub.dest))
  {
  }

  /** Below the destination, a registration is the registration of the rest of the path in the next segment's child. */
  lemma AddRouteStep(n: Node, verb: string, path: string, handler: Handler, mws: seq<Middleware>)
    requires AddRoute(n, verb, path, handler, mws).Ok? && !Consumed(path)
    ensures var sr := NextSegment(path);
      var sub := AddRoute(ChildFor(n, sr.0), verb, sr.1, handler, mws);
      && sub.Ok?
      && AddRoute(n, verb, path, handler, mws).value.tree == SetChild(n, StepOf(sr.0), sub.value.tree)
      && AddRoute(n, verb, path, handler, mws).value.dest == [StepOf(sr.0)] + sub.value.dest
  {
  }

  /**
   * After slot `s` is re-filled with `c`, a trail starting with `s` sees what
   * `c` shows below it, and any other non-empty trail sees what it saw before.
   */
  lemma SetChildFrames(n: Node, s: Step, c: Node, trail: seq<Step>)
    requires s.StaticStep? ==> c.path == s.text
    requires trail != []
    requires trail[0] == s ==> HandlersAt(c, trail[1..]) == HandlersAt(n, trail) && MiddlewaresAt(c, trail[1..]) == MiddlewaresAt(n, trail)
    ensures HandlersAt(SetChild(n, s, c), trail) == HandlersAt(n, trail)
    ensures MiddlewaresAt(SetChild(n, s, c), trail) == MiddlewaresAt(n, trail)
  {
    SplitFirst(trail);
    if trail[0] == s {
      SetChildLookup(n, s, c, s);
      DescendCons(SetChild(n, s, c), s, trail[1..]);
    } else {
      SetChildFramesOtherSlots(n, s, c, trail[0], trail[1..]);
    }
  }

  /**
   * Nothing else changes: through every trail other than the destination's,
   * a registration leaves the handlers and the middleware as they were. This
   * covers trails that reach no node before the registration: a node made on
   * the way to the destination binds nothing and has no middleware of its
   * own, and nothing is made off that way.
   */
  lemma {:induction false} AddRouteFramesOthers(n: Node, verb: string, path: string, handler: Handler, mws: seq<Middleware>, trail: seq<Step>)
    requires AddRoute(n, verb, path, handler, mws).Ok?
    ensures var a := AddRoute(n, verb, path, handler, mws).value;
      trail != a.dest ==> HandlersAt(a.tree, trail) == HandlersAt(n, trail) && MiddlewaresAt(a.tree, trail) == MiddlewaresAt(n, trail)
    decreases |path|, 1
  {
    var a := AddRoute(n, verb, path, handler, mws).value;
    if trail != a.dest {
      if trail == [] {
        AddRouteKeepsPassedNodesLocal(n, verb, path, handler, mws);
      } else if Consumed(path) {
        LocalChangeFramesChildren(n, a.tree, trail);
      } else {
        AddRouteFramesBelow(n, verb, path, handler, mws, trail);
      }
    }
  }

  /** The step case of `AddRouteFramesOthers`: a non-empty trail off the destination, with a segment still to insert. */
  lemma {:induction false} AddRouteFramesBelow(n: Node, verb: string, path: string, handler: Handler, mws: seq<Middleware>, trail: seq<Step>)
    requires AddRoute(n, verb, path, handler, mws).Ok? && !Consumed(path)
    requires trail != [] && trail != AddRoute(n, verb, path, handler, mws).value.dest
    ensures HandlersAt(AddRoute(n, verb, path, handler, mws).value.tree, trail) == HandlersAt(n, trail)
    ensures MiddlewaresAt(AddRoute(n, verb, path, handler, mws).value.tree, trail) == MiddlewaresAt(n, trail)
    decreases |path|, 0
  {
    var sr := NextSegment(path);
    var step := StepOf(sr.0);
    var child := ChildFor(n, sr.0);
    AddRouteStep(n, verb, path, handler, mws);
    var sub := AddRoute(child, verb, sr.1, handler, mws).value;
    if trail[0] == step {
      var rest := trail[1..];
      assert rest != sub.dest by {
        SplitFirst(trail);
      }
      AddRouteFramesOthers(child, verb, sr.1, handler, mws, rest);
      assert HandlersAt(n, trail) == HandlersAt(child, rest) && MiddlewaresAt(n, trail) == MiddlewaresAt(child, rest) by {
        SplitFirst(trail);
        ChildForAt(n, sr.0, rest);
      }
    }
    SetChildFrames(n, step, sub.tree, trail);
  }

  /**
   * A registration makes nodes only on the way to its destination: every
   * node of the new tree either was there before or lies on the
   * destination's trail. An extra node off that way would matter even
   * binding nothing, since a static match commits lookup to it.
   */
  lemma {:induction false} AddRouteMakesOnlyTheWay(n: Node, verb: string, path: string, handler: Handler, mws: seq<Middleware>, trail: seq<Step>)
    requires AddRoute(n, verb, path, handler, mws).Ok?
    ensures var a := AddRoute(n, verb, path, handler, mws).value;
      Descend(a.tree, trail).Some? ==> Descend(n, trail).Some? || trail <= a.dest
    decreases |path|, 1
  {
    if trail != [] {
      if Consumed(path) {
        LocalChangeFramesChildren(n, AddRoute(n, verb, path, handler, mws).value.tree, trail);
      } else if Descend(AddRoute(n, verb, path, handler, mws).value.tree, trail).Some? {
        AddRouteMakesOnlyTheWayBelow(n, verb, path, handler, mws, trail);
      }
    }
  }

  /** The step case of `AddRouteMakesOnlyTheWay`. */
  lemma {:induction false} AddRouteMakesOnlyTheWayBelow(n: Node, verb: string, path: string, handler: Handler, mws: seq<Middleware>, trail: seq<Step>)
    requires AddRoute(n, verb, path, handler, mws).Ok? && !Consumed(path) && trail != []
    requires Descend(AddRoute(n, verb, path, handler, mws).value.tree, trail).Some?
    ensures Descend(n, trail).Some? || trail <= AddRoute(n, verb, path, handler, mws).value.dest
    decreases |path|, 0
  {
    var sr := NextSegment(path);
    var step := StepOf(sr.0);
    var child := ChildFor(n, sr.0);
    AddRouteStep(n, verb, path, handler, mws);
    var sub := AddRoute(child, verb, sr.1, handler, mws).value;
    var tree := SetChild(n, step, sub.tree);
    var rest := trail[1..];
    SplitFirst(trail);
    if trail[0] == step {
      assert Descend(sub.tree, rest).Some? by {
        SetChildLookup(n, step, sub.tree, step);
        DescendCons(tree, step, rest);
      }
      AddRouteMakesOnlyTheWay(child, verb, sr.1, handler, mws, rest);
      DescendCons(n, step, rest);
      if rest <= sub.dest {
        assert [step] + rest <= [step] + sub.dest;
      } else if Child(n, step).None? {
        // a fresh child is a leaf, and rest is not empty here
        var kind := RouteTypeFromSegment(sr.0);
        FreshNodeIsLeaf(sr.0, kind.0, kind.1, rest);
        assert false;
      }
    } else {
      SetChildFramesOtherSlots(n, step, sub.tree, trail[0], rest);
    }
  }

  /** `m` is a node made for `segment`: its text, kind and parameter name are the segment's. */
  predicate MadeFor(m: Option<Node>, segment: string) {
    && m.Some?
    && m.value.path == segment
    && (m.value.routeType, m.value.paramName) == RouteTypeFromSegment(segment)
  }

  /** When the first segment finds its slot empty, the new child in that slot is made for the segment. */
  lemma AddRouteMakesFirstChild(n: Node, verb: string, path: string, handler: Handler, mws: seq<Middleware>)
    requires AddRoute(n, verb, path, handler, mws).Ok? && !Consumed(path)
    requires Child(n, StepOf(NextSegment(path).0)).None?
    ensures var segment := NextSegment(path).0;
      MadeFor(Child(AddRoute(n, verb, path, handler, mws).value.tree, StepOf(segment)), segment)
  {
    var sr := NextSegment(path);
    AddRouteStep(n, verb, path, handler, mws);
    var sub := AddRoute(ChildFor(n, sr.0), verb, sr.1, handler, mws).value;
    SetChildLookup(n, StepOf(sr.0), sub.tree, StepOf(sr.0));
  }

  /** Below the first step, the new tree shows what the registration in the child made. */
  lemma AddRouteDescendsFirst(n: Node, verb: string, path: string, handler: Handler, mws: seq<Middleware>, rest: seq<Step>)
    requires AddRoute(n, verb, path, handler, mws).Ok? && !Consumed(path)
    ensures var sr := NextSegment(path);
      var sub := AddRoute(ChildFor(n, sr.0), verb, sr.1, handler, mws);
      sub.Ok? && Descend(AddRoute(n, verb, path, handler, mws).value.tree, [StepOf(sr.0)] + rest) == Descend(sub.value.tree, rest)
  {
    var sr := NextSegment(path);
    AddRouteStep(n, verb, path, handler, mws);
    var sub := AddRoute(ChildFor(n, sr.0), verb, sr.1, handler, mws).value;
    var tree := SetChild(n, StepOf(sr.0), sub.tree);
    SetChildLookup(n, StepOf(sr.0), sub.tree, StepOf(sr.0));
    DescendCons(tree, StepOf(sr.0), rest);
  }

  /**
   * A node a registration creates is named by its segment: the node at a
   * non-empty prefix of the destination's trail, when there was none before,
   * has the segment of its depth as its text, and that segment's kind and
   * parameter name. So "{id}" makes a parameter node binding "id", and
   * "*path" a wildcard node binding "path".
   */
  lemma {:induction false} AddRouteNamesNewNodes(n: Node, verb: string, path: string, handler: Handler, mws: seq<Middleware>, trail: seq<Step>)
    requires AddRoute(n, verb, path, handler, mws).Ok?
    ensures var a := AddRoute(n, verb, path, handler, mws).value;
      trail != [] && trail <= a.dest && Descend(n, trail).None? ==>
        MadeFor(Descend(a.tree, trail), Segments.Segments(path)[|trail| - 1])
    decreases |path|, 1
  {
    var a := AddRoute(n, verb, path, handler, mws).value;
    if trail != [] && trail <= a.dest && Descend(n, trail).None? {
      AddRouteNamesNewNodesBelow(n, verb, path, handler, mws, trail);
    }
  }

  /** The inductive step of `AddRouteNamesNewNodes`. */
  lemma {:induction false} AddRouteNamesNewNodesBelow(n: Node, verb: string, path: string, handler: Handler, mws: seq<Middleware>, trail: seq<Step>)
    requires AddRoute(n, verb, path, handler, mws).Ok?
    requires trail != [] && trail <= AddRoute(n, verb, path, handler, mws).value.dest
    requires Descend(n, trail).None?
    ensures |trail| - 1 < |Segments.Segments(path)|
    ensures MadeFor(Descend(AddRoute(n, verb, path, handler, mws).value.tree, trail), Segments.Segments(path)[|trail| - 1])
    decreases |path|, 0
  {
    var a := AddRoute(n, verb, path, handler, mws).value;
    var sr := NextSegment(path);
    var step := StepOf(sr.0);
    var child := ChildFor(n, sr.0);
    AddRouteStep(n, verb, path, handler, mws);
    var sub := AddRoute(child, verb, sr.1, handler, mws).value;
    var rest := trail[1..];
    SplitFirst(trail);
    assert trail[0] == step && rest <= sub.dest;
    assert Segments.Segments(path) == [sr.0] + Segments.Segments(sr.1);
    if rest == [] {
      DescendCons(n, step, []);
      DescendCons(a.tree, step, []);
      AddRouteMakesFirstChild(n, verb, path, handler, mws);
    } else {
      assert Descend(child, rest).None? by {
        DescendCons(n, step, rest);
        var kind := RouteTypeFromSegment(sr.0);
        FreshNodeIsLeaf(sr.0, kind.0, kind.1, rest);
      }
      AddRouteDescendsFirst(n, verb, path, handler, mws, rest);
      AddRouteNamesNewNodes(child, verb, sr.1, handler, mws, rest);
    }
  }

  /** Below a node that was just created, registration cannot fail: there is nothing to collide with. */
  lemma NewSubtreeNeverRejects(text: string, routeType: RouteType, name: string, verb: string, path: string, handler: Handler, mws: seq<Middleware>)
    ensures AddRoute(NewRouteNode(text, routeType, name), verb, path, handler, mws).Ok?
  {
    AddRouteRejectsExactlyDuplicates(NewRouteNode(text, routeType, name), verb, path, handler, mws);
    FreshNodeIsLeaf(text, routeType, name, StepsOf(path));
  }

  /** Registering the same method and path a second time is rejected. */
  lemma DuplicateRegistrationRejected(n: Node, verb: string, path: string, h1: Handler, m1: seq<Middleware>, h2: Handler, m2: seq<Middleware>)
    requires AddRoute(n, verb, path, h1, m1).Ok?
    ensures AddRoute(AddRoute(n, verb, path, h1, m1).value.tree, verb, path, h2, m2) == Err(RouteAlreadyExists)
  {
    AddRouteBinds(n, verb, path, h1, m1);
    AddRouteRejectsExactlyDuplicates(AddRoute(n, verb, path, h1, m1).value.tree, verb, path, h2, m2);
  }

  /** A leading slash is optional: "users" and "/users" are the same registration, and so are "" and "/". */
  lemma AddRouteLeadingSlashOptional(n: Node, verb: string, path: string, handler: Handler, mws: seq<Middleware>)
    requires path == "" || path[0] != '/'
    ensures AddRoute(n, verb, "/" + path, handler, mws) == AddRoute(n, verb, path, handler, mws)
  {
    if path != "" {
      NextSegmentIgnoresLeadingSlash(path);
    } else {
      assert "/" + path == "/";
    }
  }
}

=== FILE: regex.dfy ===
/**
 * The two segment patterns of the classifier, written as character
 * predicates instead of compiled regular expressions.
 *
 * A parameter segment is an opening brace, any run of characters other than
 * a closing brace, and a closing brace that ends the segment. A wildcard
 * segment is an asterisk followed by any run of characters other than a
 * slash. The predicates are the declarative reading of the two patterns; the
 * methods below run the finite automata the patterns denote, one character
 * at a time, and are proved to accept exactly the same strings.
 */
module Regex {

  predicate IsPathParam(s: string) {
    |s| >= 2 && s[0] == '{' && s[|s| - 1] == '}' && '}' !in s[1..|s| - 1]
  }

  predicate IsWildcard(s: string) {
    |s| >= 1 && s[0] == '*' && '/' !in s[1..]
  }

  /** States of the automaton for the parameter pattern. */
  datatype ParamState = ExpectOpen | InBraces | Closed | ParamDead

  function ParamNext(st: ParamState, c: char): ParamState {
    match st
    case ExpectOpen => if c == '{' then InBraces else ParamDead
    case InBraces => if c == '}' then Closed else InBraces
    case Closed => ParamDead
    case ParamDead => ParamDead
  }

  /** Runs the parameter automaton over `s`; accepts exactly the parameter segments. */
  method MatchPathParam(s: string) returns (accepted: bool)
    ensures accepted <==> IsPathParam(s)
  {
    var st := ExpectOpen;
    var i := 0;
    while i < |s|
      invariant 0 <= i <= |s|
      invariant st == ExpectOpen <==> i == 0
      invariant st == InBraces <==> i >= 1 && s[0] == '{' && '}' !in s[1..i]
      invariant st == Closed <==> i >= 2 && s[0] == '{' && s[i - 1] == '}' && '}' !in s[1..i - 1]
    {
      if i >= 1 {
        assert s[1..i + 1] == s[1..i] + [s[i]];
      }
      st := ParamNext(st, s[i]);
      i := i + 1;
    }
    accepted := st == Closed;
  }

  /** States of the automaton for the wildcard pattern. */
  datatype WildcardState = ExpectStar | InName | WildcardDead

  function WildcardNext(st: WildcardState, c: char): WildcardState {
    match st
    case ExpectStar => if c == '*' then InName else WildcardDead
    case InName => if c == '/' then WildcardDead else InName
    case WildcardDead => WildcardDead
  }

  /** Runs the wildcard automaton over `s`; accepts exactly the wildcard segments. */
  method MatchWildcard(s: string) returns (accepted: bool)
    ensures accepted <==> IsWildcard(s)
  {
    var st := ExpectStar;
    var i := 0;
    while i < |s|
      invariant 0 <= i <= |s|
      invariant st == ExpectStar <==> i == 0
      invariant st == InName <==> i >= 1 && s[0] == '*' && '/' !in s[1..i]
    {
      if i >= 1 {
        assert s[1..i + 1] == s[1..i] + [s[i]];
      }
      st := WildcardNext(st, s[i]);
      i := i + 1;
    }
    accepted := st == InName;
  }

  /** The two conventions never overlap: their first characters differ. */
  lemma ParamAndWildcardDisjoint(s: string)
    ensures !(IsPathParam(s) && IsWildcard(s))
  {
  }

  /** The classifier's own examples, plus the empty names both patterns admit. */
  lemma PatternExamples()
    ensures IsPathParam("{id}") && !IsWildcard("{id}")
    ensures IsWildcard("*id") && !IsPathParam("*id")
    ensures IsPathParam("{}") && IsWildcard("*")
    ensures !IsPathParam("users") && !IsWildcard("users")
    ensures !IsPathParam("{") && !IsWildcard("")
  {
  }

  /** A closing brace inside the braces is not a parameter segment, even when the segment also ends in one. */
  lemma BraceInsideRejected()
    ensures !IsPathParam("{a}b}")
  {
    var s := "{a}b}";
    var inner := s[1..|s| - 1];
    assert inner[1] == '}';
  }
}

=== FILE: registration.dfy ===
/**
 * The registration surface a node exposes: `Route`, `Group`, `Use` and the
 * per-method helpers, plus operations on a node reached through a trail
 * (what the source does by keeping the pointer a registration returned).
 */
module Registration {
  import opened Results
  import opened Tree
  import opened Segments
  import opened RouteErrors
  import opened Insert

  /**
   * Registers a route; a rejection is wrapped with the method and the path
   * exactly as given.
   */
  function Route(n: Node, verb: string, path: string, handler: Handler, mws: seq<Middleware>): (r: Result<Added, RouteError>)
    ensures r.Err? <==> verb in HandlersAt(n, StepsOf(path))
    ensures r.Err? ==> r.error == NewRouteError(verb, path, RouteAlreadyExists)
    ensures r.Ok? ==> r.value.dest == StepsOf(path)
    ensures r.Ok? ==> HandlersAt(r.value.tree, r.value.dest) == HandlersAt(n, StepsOf(path))[verb := handler]
    ensures r.Ok? ==> MiddlewaresAt(r.value.tree, r.value.dest) == MiddlewaresAt(n, StepsOf(path)) + mws
  {
    AddRouteRejectsExactlyDuplicates(n, verb, path, handler, mws);
    match AddRoute(n, verb, path, handler, mws)
    case Err(e) => Err(NewRouteError(verb, path, e))
    case Ok(a) =>
      AddRouteBinds(n, verb, path, handler, mws);
      Ok(a)
  }

  /**
   * Mounts a prefix: a registration under the empty method with a nil
   * handler, so the prefix node is marked as taken for that method.
   */
  function Group(n: Node, prefix: string, mws: seq<Middleware>): (r: Result<Added, RouteError>)
    ensures r.Err? <==> "" in HandlersAt(n, StepsOf(prefix))
    ensures r.Ok? ==> r.value.dest == StepsOf(prefix)
    ensures r.Ok? ==> "" in HandlersAt(r.value.tree, r.value.dest) && HandlersAt(r.value.tree, r.value.dest)[""] == NilHandler
    ensures r.Ok? ==> MiddlewaresAt(r.value.tree, r.value.dest) == MiddlewaresAt(n, StepsOf(prefix)) + mws
  {
    Route(n, "", prefix, NilHandler, mws)
  }

  /** Grouping the same prefix twice fails, because the first group already bound the empty method there. */
  lemma GroupTwiceFails(n: Node, prefix: string, m1: seq<Middleware>, m2: seq<Middleware>)
    requires Group(n, prefix, m1).Ok?
    ensures Group(Group(n, prefix, m1).value.tree, prefix, m2) == Err(NewRouteError("", prefix, RouteAlreadyExists))
  {
  }

  /** Appends middleware to the node's own list, in order; the node is otherwise unchanged. */
  function Use(n: Node, mws: seq<Middleware>): (r: Node)
    ensures r.middlewares == n.middlewares + mws
    ensures r.(middlewares := n.middlewares) == n
  {
    n.(middlewares := n.middlewares + mws)
  }

  /** The seven methods that have their own registration helper. */
  datatype Verb = GET | POST | PUT | DELETE | PATCH | OPTIONS | HEAD

  /** The method token each helper registers under. */
  function Token(v: Verb): string {
    match v
    case GET => "GET"
    case POST => "POST"
    case PUT => "PUT"
    case DELETE => "DELETE"
    case PATCH => "PATCH"
    case OPTIONS => "OPTIONS"
    case HEAD => "HEAD"
  }

  lemma TokensDistinct()
    ensures forall a: Verb, b: Verb :: a != b ==> Token(a) != Token(b)
  {
  }

  /** What a per-method helper hands back: always the receiver, with the error if there was one. */
  datatype Registered = Registered(receiver: Node, err: Option<RouteError>)

  /**
   * The GET, POST, PUT, DELETE, PATCH, OPTIONS and HEAD helpers: register
   * under the verb's token and return the receiver (updated on success,
   * unchanged on failure), never the node the route was put on.
   */
  function RegisterVerb(n: Node, v: Verb, path: string, handler: Handler, mws: seq<Middleware>): (r: Registered)
    ensures r.err.Some? <==> Token(v) in HandlersAt(n, StepsOf(path))
    ensures r.err.Some? ==> r.receiver == n && r.err.value == NewRouteError(Token(v), path, RouteAlreadyExists)
    ensures r.err.None? ==> SameIdentity(r.receiver, n)
    ensures r.err.None? ==> HandlersAt(r.receiver, StepsOf(path)) == HandlersAt(n, StepsOf(path))[Token(v) := handler]
    ensures r.err.None? ==> MiddlewaresAt(r.receiver, StepsOf(path)) == MiddlewaresAt(n, StepsOf(path)) + mws
  {
    match Route(n, Token(v), path, handler, mws)
    case Err(e) => Registered(n, Some(e))
    case Ok(a) => Registered(a.tree, None)
  }

  /** `n` with the node at `trail` replaced by `sub`, which must carry the same segment text. */
  function ReplaceAt(n: Node, trail: seq<Step>, sub: Node): (r: Node)
    requires Descend(n, trail).Some? && sub.path == Descend(n, trail).value.path
    ensures Descend(r, trail) == Some(sub)
    ensures trail != [] ==> SameIdentity(r, n) && r.handlers == n.handlers && r.middlewares == n.middlewares
    decreases |trail|
  {
    if trail == [] then sub
    else
      var c := Child(n, trail[0]).value;
      var below := ReplaceAt(c, trail[1..], sub);
      assert trail[0].StaticStep? ==> c.path == trail[0].text;
      SetChildLookup(n, trail[0], below, trail[0]);
      DescendCons(SetChild(n, trail[0], below), trail[0], trail[1..]);
      assert [trail[0]] + trail[1..] == trail;
      SetChild(n, trail[0], below)
  }

  /**
   * Replacing a node by one with the same children changes nothing seen
   * through any other trail: the nodes above keep their handlers and
   * middleware, and so does every node beside or below it.
   */
  lemma {:induction false} ReplaceAtFramesOthers(n: Node, trail: seq<Step>, sub: Node, other: seq<Step>)
    requires Descend(n, trail).Some? && sub.path == Descend(n, trail).value.path
    requires sub.statics == Descend(n, trail).value.statics
    requires sub.param == Descend(n, trail).value.param && sub.wildcard == Descend(n, trail).value.wildcard
    requires other != trail
    ensures HandlersAt(ReplaceAt(n, trail, sub), other) == HandlersAt(n, other)
    ensures MiddlewaresAt(ReplaceAt(n, trail, sub), other) == MiddlewaresAt(n, other)
    decreases |trail|
  {
    var r := ReplaceAt(n, trail, sub);
    if trail == [] {
      LocalChangeFramesChildren(n, sub, other);
    } else if other != [] {
      var c := Child(n, trail[0]).value;
      var below := ReplaceAt(c, trail[1..], sub);
      assert r == SetChild(n, trail[0], below);
      assert trail[0].StaticStep? ==> below.path == trail[0].text;
      SplitFirst(other);
      if other[0] == trail[0] {
        SplitFirst(trail);
        assert other[1..] != trail[1..];
        DescendCons(n, trail[0], trail[1..]);
        ReplaceAtFramesOthers(c, trail[1..], sub, other[1..]);
        SetChildLookup(n, trail[0], below, trail[0]);
        DescendCons(r, other[0], other[1..]);
        DescendCons(n, other[0], other[1..]);
      } else {
        SetChildFramesOtherSlots(n, trail[0], below, other[0], other[1..]);
      }
    }
  }

  /** `Use` called on the node a registration returned: that node, and only it, gets the middleware appended. */
  function UseAt(n: Node, trail: seq<Step>, mws: seq<Middleware>): (r: Node)
    requires Descend(n, trail).Some?
    ensures Descend(r, trail) == Some(Use(Descend(n, trail).value, mws))
    ensures MiddlewaresAt(r, trail) == MiddlewaresAt(n, trail) + mws
    ensures HandlersAt(r, trail) == HandlersAt(n, trail)
  {
    ReplaceAt(n, trail, Use(Descend(n, trail).value, mws))
  }

  /** `Use` on a returned node leaves the handlers and middleware seen through every other trail as they were. */
  lemma UseAtFramesOthers(n: Node, trail: seq<Step>, mws: seq<Middleware>, other: seq<Step>)
    requires Descend(n, trail).Some? && other != trail
    ensures HandlersAt(UseAt(n, trail, mws), other) == HandlersAt(n, other)
    ensures MiddlewaresAt(UseAt(n, trail, mws), other) == MiddlewaresAt(n, other)
  {
    ReplaceAtFramesOthers(n, trail, Use(Descend(n, trail).value, mws), other);
  }

  /** `Route` called on the node a registration returned (a group): the new trail extends the group's. */
  function RouteAt(n: Node, trail: seq<Step>, verb: string, path: string, handler: Handler, mws: seq<Middleware>): (r: Result<Added, RouteError>)
    requires Descend(n, trail).Some?
    ensures r.Err? <==> verb in HandlersAt(Descend(n, trail).value, StepsOf(path))
    ensures r.Err? ==> r.error == NewRouteError(verb, path, RouteAlreadyExists)
    ensures r.Ok? ==> r.value.dest == trail + StepsOf(path)
    ensures r.Ok? ==> HandlersAt(r.value.tree, r.value.dest) == HandlersAt(Descend(n, trail).value, StepsOf(path))[verb := handler]
    ensures r.Ok? ==> MiddlewaresAt(r.value.tree, r.value.dest) == MiddlewaresAt(Descend(n, trail).value, StepsOf(path)) + mws
  {
    var sub := Descend(n, trail).value;
    match Route(sub, verb, path, handler, mws)
    case Err(e) => Err(e)
    case Ok(a) =>
      var tree := ReplaceAt(n, trail, a.tree);
      DescendAppend(tree, trail, a.dest);
      Ok(Added(tree, trail + a.dest))
  }
  /**
   * Replacing the node at `trail` by any node with the same text changes
   * nothing seen through a trail that does not pass through it: the nodes
   * above keep their handlers and middleware, and so does everything beside.
   */
  lemma {:induction false} ReplaceAtFramesOff(n: Node, trail: seq<Step>, sub: Node, other: seq<Step>)
    requires Descend(n, trail).Some? && sub.path == Descend(n, trail).value.path
    requires !(trail <= other)
    ensures HandlersAt(ReplaceAt(n, trail, sub), other) == HandlersAt(n, other)
    ensures MiddlewaresAt(ReplaceAt(n, trail, sub), other) == MiddlewaresAt(n, other)
    decreases |trail|
  {
    var r := ReplaceAt(n, trail, sub);
    if other != [] {
      var c := Child(n, trail[0]).value;
      var below := ReplaceAt(c, trail[1..], sub);
      assert r == SetChild(n, trail[0], below);
      assert trail[0].StaticStep? ==> below.path == trail[0].text;
      SplitFirst(other);
      if other[0] == trail[0] {
        SplitFirst(trail);
        assert !(trail[1..] <= other[1..]);
        DescendCons(n, trail[0], trail[1..]);
        ReplaceAtFramesOff(c, trail[1..], sub, other[1..]);
        SetChildLookup(n, trail[0], below, trail[0]);
        DescendCons(r, other[0], other[1..]);
        DescendCons(n, other[0], other[1..]);
      } else {
        SetChildFramesOtherSlots(n, trail[0], below, other[0], other[1..]);
      }
    }
  }

  /**
   * Registering on a group node changes nothing but the new destination:
   * through every other trail, above, beside or below the group, handlers
   * and middleware are as before.
   */
  lemma RouteAtFramesOthers(n: Node, trail: seq<Step>, verb: string, path: string, handler: Handler, mws: seq<Middleware>, other: seq<Step>)
    requires Descend(n, trail).Some?
    ensures var r := RouteAt(n, trail, verb, path, handler, mws);
      r.Ok? && other != r.value.dest ==>
        HandlersAt(r.value.tree, other) == HandlersAt(n, other) && MiddlewaresAt(r.value.tree, other) == MiddlewaresAt(n, other)
  {
    var r := RouteAt(n, trail, verb, path, handler, mws);
    if r.Ok? && other != r.value.dest {
      var sub := Descend(n, trail).value;
      var a := AddRoute(sub, verb, path, handler, mws).value;
      assert Route(sub, verb, path, handler, mws) == Ok(a);
      var tree := ReplaceAt(n, trail, a.tree);
      assert r.value == Added(tree, trail + a.dest);
      if trail <= other {
        var u := other[|trail|..];
        assert other == trail + u;
        assert u != a.dest;
        DescendAppend(tree, trail, u);
        AddRouteFramesOthers(sub, verb, path, handler, mws, u);
        DescendAppend(n, trail, u);
      } else {
        ReplaceAtFramesOff(n, trail, a.tree, other);
      }
    }
  }
}

=== FILE: results.dfy ===
/** Failure-carrying wrappers shared by every module of the routing model. */
module Results {

  /** A value that may be absent (a nil pointer or a missing map entry in the source). */
  datatype Option<+T> = None | Some(value: T)

  /** Either a value or an error, mirroring Go's `(value, error)` return pairs. */
  datatype Result<+T, +E> = Ok(value: T) | Err(error: E)
}

=== FILE: roundtrip.dfy ===
/**
 * Registration followed by lookup: a static route, once registered, is
 * found again with the handler it was registered with.
 */
module RoundTrip {
  import opened Results
  import opened Tree
  import opened Segments
  import opened RouteErrors
  import opened Insert
  import opened Match
  import Registration

  /** The first segment of a path of static segments is static, and so are the rest. */
  lemma AllStaticStep(path: string)
    requires !Consumed(path) && AllStatic(path)
    ensures StepOf(NextSegment(path).0) == StaticStep(NextSegment(path).0)
    ensures AllStatic(NextSegment(path).1)
  {
  }

  /** Along a path of static segments that exists in the tree, the static trail is admissible and captures nothing. */
  lemma {:induction false} StaticTrailAdmitted(n: Node, path: string, params: map<string, string>)
    requires AllStatic(path)
    requires Descend(n, StepsOf(path)).Some?
    ensures Admits(n, path, StepsOf(path), params, params)
    decreases |path|
  {
    if !Consumed(path) {
      var segment := NextSegment(path).0;
      var remaining := NextSegment(path).1;
      AllStaticStep(path);
      var trail := StepsOf(path);
      assert trail == [StaticStep(segment)] + StepsOf(remaining);
      DescendCons(n, StaticStep(segment), StepsOf(remaining));
      StaticTrailAdmitted(Child(n, StaticStep(segment)).value, remaining, params);
      assert trail[0] == StaticStep(segment) && trail[1..] == StepsOf(remaining);
    }
  }

  /** ... and it is the only admissible trail: static children commit, so nothing else can be taken. */
  lemma {:induction false} StaticTrailOnly(n: Node, path: string, trail: seq<Step>, params: map<string, string>, after: map<string, string>)
    requires AllStatic(path)
    requires Descend(n, StepsOf(path)).Some?
    requires Admits(n, path, trail, params, after)
    ensures trail == StepsOf(path) && after == params
    decreases |path|
  {
    if !Consumed(path) {
      var segment := NextSegment(path).0;
      var remaining := NextSegment(path).1;
      AllStaticStep(path);
      DescendCons(n, StaticStep(segment), StepsOf(remaining));
      AdmitsStep(n, path, trail, params, after);
      StaticTrailOnly(Child(n, StaticStep(segment)).value, remaining, trail[1..], params, after);
      SplitFirst(trail);
    }
  }

  /**
   * Round trip: after a successful registration of a path made only of
   * static segments, lookup of that path with the same method follows the
   * registered trail and returns the registered handler, capturing nothing.
   */
  lemma FindAfterAddRoute(n: Node, verb: string, path: string, handler: Handler, mws: seq<Middleware>, params: map<string, string>, above: seq<Middleware>)
    requires AllStatic(path)
    requires AddRoute(n, verb, path, handler, mws).Ok?
    ensures var tree := AddRoute(n, verb, path, handler, mws).value.tree;
      var r := FindFrom(tree, verb, path, params, above);
      && r.Ok?
      && r.value.handler == handler
      && r.value.params == params
      && r.value.trail == StepsOf(path)
  {
    var tree := AddRoute(n, verb, path, handler, mws).value.tree;
    AddRouteBinds(n, verb, path, handler, mws);
    StaticTrailAdmitted(tree, path, params);
    FindComplete(tree, verb, path, params, above, StepsOf(path), params);
    FindSound(tree, verb, path, params, above);
    var m := FindFrom(tree, verb, path, params, above).value;
    StaticTrailOnly(tree, path, m.trail, params, m.params);
  }

  /**
   * The same round trip through the public surface: the route found
   * reports the method and path as given, the registered handler, no
   * captures, and the middleware of every node from the root down to the
   * registered one.
   */
  lemma RouteThenFind(root: Node, verb: string, path: string, handler: Handler, mws: seq<Middleware>)
    requires AllStatic(path)
    requires Registration.Route(root, verb, path, handler, mws).Ok?
    ensures var tree := Registration.Route(root, verb, path, handler, mws).value.tree;
      Find(tree, verb, path) == Ok(Match.Route(verb, path, handler, ChainAlong(tree, StepsOf(path)), map[]))
  {
    var tree := Registration.Route(root, verb, path, handler, mws).value.tree;
    assert tree == AddRoute(root, verb, path, handler, mws).value.tree;
    FindAfterAddRoute(root, verb, path, handler, mws, map[], []);
    FindSound(tree, verb, path, map[], []);
    assert [] + ChainAlong(tree, StepsOf(path)) == ChainAlong(tree, StepsOf(path));
  }

  /**
   * The node a static route reaches reports that route's path, rebuilt
   * from its segments the way `Path` rebuilds it.
   */
  lemma {:induction false} StaticTextsAlong(n: Node, path: string)
    requires AllStatic(path)
    requires Descend(n, StepsOf(path)).Some?
    ensures TextsAlong(n, StepsOf(path)) == Segments.Segments(path)
    decreases |path|
  {
    if !Consumed(path) {
      var segment := NextSegment(path).0;
      var remaining := NextSegment(path).1;
      AllStaticStep(path);
      DescendCons(n, StaticStep(segment), StepsOf(remaining));
      StaticTextsAlong(Child(n, StaticStep(segment)).value, remaining);
    }
  }
}

=== FILE: scenarios.dfy ===
/**
 * Lookups in a small fixed tree: a static, a parameter and a wildcard
 * route side by side under "/users", each bound for GET.
 */
module Scenarios {
  import opened Results
  import opened Tree
  import opened Segments
  import opened RouteErrors
  import opened Match
  import Structure
  import Insert

  const Get := "GET"

  /** Segment texts of the static routes. */
  const Users := "users"
  const Admin := "admin"

  function AdminNode(): Node { Node(Admin, Static, "", map[Get := HandlerFn(2)], [], [], None, None) }
  function IdNode(): Node { Node("{id}", Param, "id", map[Get := HandlerFn(1)], [], [], None, None) }
  function RestNode(): Node { Node("*path", Wildcard, "path", map[Get := HandlerFn(3)], [], [], None, None) }
  function UsersNode(): Node { Node(Users, Static, "", map[], [], [AdminNode()], Some(IdNode()), Some(RestNode())) }

  /** The tree for GET "/users/{id}" (handler 1), "/users/admin" (handler 2) and "/users/" + "*path" (handler 3). */
  function PriorityTree(): Node {
    Node("", NoneKind, "", map[], [], [UsersNode()], None, None)
  }

  /** The tree after the first registration, and after the second. */
  function AfterFirst(): Node {
    Node("", NoneKind, "", map[], [], [Node(Users, Static, "", map[], [], [], Some(IdNode()), None)], None, None)
  }

  function AfterSecond(): Node {
    Node("", NoneKind, "", map[], [], [Node(Users, Static, "", map[], [], [AdminNode()], Some(IdNode()), None)], None, None)
  }

  /** A two-segment registration below `n`: reuse or make the two children, then bind at the second. */
  lemma {:induction false} AddTwoSegments(n: Node, verb: string, s1: string, s2: string, h: Handler)
    requires '/' !in s1 && s1 != "" && '/' !in s2 && s2 != ""
    requires verb !in Insert.ChildFor(Insert.ChildFor(n, s1), s2).handlers
    ensures var c1 := Insert.ChildFor(n, s1);
      var c2 := Insert.ChildFor(c1, s2);
      Insert.AddRoute(n, verb, "/" + s1 + "/" + s2, h, [])
        == Ok(Insert.Added(Insert.SetChild(n, StepOf(s1), Insert.SetChild(c1, StepOf(s2), c2.(handlers := c2.handlers[verb := h]))), [StepOf(s1), StepOf(s2)]))
  {
    var c1 := Insert.ChildFor(n, s1);
    var c2 := Insert.ChildFor(c1, s2);
    var leaf := c2.(handlers := c2.handlers[verb := h]);
    var mid := Insert.SetChild(c1, StepOf(s2), leaf);
    Insert.AddRouteHere(c2, verb, "", h, []);
    assert c2.middlewares + [] == c2.middlewares;
    NextSegmentLast(s2);
    Insert.AddRouteThrough(c1, verb, "/" + s2, h, [], Insert.Added(leaf, []));
    ShortTrails(StepOf(s2), StepOf(s2));
    ShortTrails(StepOf(s1), StepOf(s2));
    NextSegmentInner(s1, s2);
    Insert.AddRouteThrough(n, verb, "/" + s1 + "/" + s2, h, [], Insert.Added(mid, [StepOf(s2)]));
  }

  /** GET "/users/{id}" on the engine's empty root makes "users" and its parameter child. */
  lemma RegisterParam()
    ensures Insert.AddRoute(Structure.NewRoot(), Get, "/" + Users + "/" + "{id}", HandlerFn(1), [])
         == Ok(Insert.Added(AfterFirst(), [StaticStep(Users), ParamStep]))
  {
    SegmentTexts();
    ClassifierExamples();
    var root := Structure.NewRoot();
    var users := NewRouteNode(Users, Static, "");
    var id := NewRouteNode("{id}", Param, "id");
    assert StepOf(Users) == StaticStep(Users) && StepOf("{id}") == ParamStep;
    assert Insert.ChildFor(root, Users) == users;
    assert Insert.ChildFor(users, "{id}") == id;
    AddTwoSegments(root, Get, Users, "{id}", HandlerFn(1));
    assert id.(handlers := id.handlers[Get := HandlerFn(1)]) == IdNode();
    var filled := Insert.SetChild(users, ParamStep, IdNode());
    assert filled == AfterFirst().statics[0];
    assert Insert.PutStatic(root.statics, filled) == [filled];
  }

  /** GET "/users/admin" then reuses "users" and adds the static child. */
  lemma RegisterStatic()
    ensures Insert.AddRoute(AfterFirst(), Get, "/" + Users + "/" + Admin, HandlerFn(2), [])
         == Ok(Insert.Added(AfterSecond(), [StaticStep(Users), StaticStep(Admin)]))
  {
    SegmentTexts();
    var users := AfterFirst().statics[0];
    var admin := NewRouteNode(Admin, Static, "");
    assert StepOf(Users) == StaticStep(Users) && StepOf(Admin) == StaticStep(Admin) by {
      ClassifierExamples();
      assert RouteTypeFromSegment(Admin) == (Static, "");
    }
    assert Insert.ChildFor(AfterFirst(), Users) == users;
    assert Insert.ChildFor(users, Admin) == admin by {
      assert RouteTypeFromSegment(Admin) == (Static, "");
    }
    AddTwoSegments(AfterFirst(), Get, Users, Admin, HandlerFn(2));
    assert admin.(handlers := admin.handlers[Get := HandlerFn(2)]) == AdminNode();
    var filled := Insert.SetChild(users, StaticStep(Admin), AdminNode());
    assert Insert.PutStatic(users.statics, AdminNode()) == [AdminNode()];
    assert filled == AfterSecond().statics[0];
    assert Insert.PutStatic(AfterFirst().statics, filled) == [filled];
  }

  /** GET "/users/" followed by "*path" then reuses "users" and adds the wildcard child. */
  lemma RegisterWildcard()
    ensures Insert.AddRoute(AfterSecond(), Get, "/" + Users + "/" + "*path", HandlerFn(3), [])
         == Ok(Insert.Added(PriorityTree(), [StaticStep(Users), WildcardStep]))
  {
    SegmentTexts();
    ClassifierExamples();
    var users := AfterSecond().statics[0];
    var rest := NewRouteNode("*path", Wildcard, "path");
    assert StepOf(Users) == StaticStep(Users) && StepOf("*path") == WildcardStep;
    assert Insert.ChildFor(AfterSecond(), Users) == users;
    assert Insert.ChildFor(users, "*path") == rest;
    AddTwoSegments(AfterSecond(), Get, Users, "*path", HandlerFn(3));
    assert rest.(handlers := rest.handlers[Get := HandlerFn(3)]) == RestNode();
    var filled := Insert.SetChild(users, WildcardStep, RestNode());
    assert filled == UsersNode();
    assert Insert.PutStatic(AfterSecond().statics, filled) == [filled];
  }

  /**
   * The three registrations of the priority test, made in the test's order
   * on the engine's empty root, build exactly `PriorityTree`.
   */
  lemma RegistrationsBuildPriorityTree()
    ensures var first := Insert.AddRoute(Structure.NewRoot(), Get, "/" + Users + "/" + "{id}", HandlerFn(1), []);
      && first.Ok?
      && var second := Insert.AddRoute(first.value.tree, Get, "/" + Users + "/" + Admin, HandlerFn(2), []);
      && second.Ok?
      && var third := Insert.AddRoute(second.value.tree, Get, "/" + Users + "/" + "*path", HandlerFn(3), []);
      && third.Ok?
      && third.value.tree == PriorityTree()
  {
    RegisterParam();
    RegisterStatic();
    RegisterWildcard();
  }

  /** The static segment texts are non-empty and hold no slash. */
  lemma SegmentTexts()
    ensures '/' !in Users && Users != ""
    ensures '/' !in Admin && Admin != ""
  {
  }

  /** Lookup from the root enters "users" and continues there with the rest of the path. */
  lemma EntersUsers(verb: string, rest: string)
    requires rest != ""
    ensures FindFrom(PriorityTree(), verb, "/" + Users + "/" + rest, map[], [])
         == Via(StaticStep(Users), FindFrom(UsersNode(), verb, "/" + rest, map[], []))
  {
    SegmentTexts();
    NextSegmentInner(Users, rest);
    var empty: seq<Middleware> := [];
    assert Child(PriorityTree(), StaticStep(Users)) == Some(UsersNode());
    FindAtStatic(PriorityTree(), verb, "/" + Users + "/" + rest, map[], empty);
    assert empty + PriorityTree().middlewares == empty;
  }

  /** "/users/admin" takes the static route and captures nothing. */
  lemma StaticWins()
    ensures Find(PriorityTree(), Get, "/" + Users + "/" + Admin) == Ok(Match.Route(Get, "/" + Users + "/" + Admin, HandlerFn(2), [], map[]))
  {
    SegmentTexts();
    var empty: seq<Middleware> := [];
    EntersUsers(Get, Admin);
    NextSegmentLast(Admin);
    assert Child(UsersNode(), StaticStep(Admin)) == Some(AdminNode());
    FindAtStatic(UsersNode(), Get, "/" + Admin, map[], empty);
    assert empty + UsersNode().middlewares == empty;
    FindAtConsumed(AdminNode(), Get, "", map[], empty);
  }

  /** Any other single segment under "/users" goes to the parameter, not the wildcard. */
  lemma ParamBeatsWildcard(segment: string)
    requires '/' !in segment && segment != "" && segment != Admin
    ensures Find(PriorityTree(), Get, "/" + Users + "/" + segment) == Ok(Match.Route(Get, "/" + Users + "/" + segment, HandlerFn(1), [], map["id" := segment]))
  {
    var empty: seq<Middleware> := [];
    FindAtConsumed(IdNode(), Get, "", map["id" := segment], empty);
    EntersUsers(Get, segment);
    NextSegmentLast(segment);
    assert Child(UsersNode(), StaticStep(segment)).None?;
    assert empty + UsersNode().middlewares == empty;
    FindAtParam(UsersNode(), Get, "/" + segment, map[], empty);
  }

  /** Under "users" the only static child is "admin". */
  lemma NoStaticUnderUsers(segment: string)
    requires segment != Admin
    ensures Child(UsersNode(), StaticStep(segment)).None?
  {
    assert UsersNode().statics == [AdminNode()];
  }

  /** A node without children matches nothing beyond itself. */
  lemma {:induction false} LeafMatchesNothingDeeper(n: Node, verb: string, path: string, params: map<string, string>, above: seq<Middleware>)
    requires n.statics == [] && n.param.None? && n.wildcard.None?
    requires !Consumed(path)
    ensures FindFrom(n, verb, path, params, above).Err?
  {
    assert Child(n, StaticStep(NextSegment(path).0)).None?;
  }

  /** A leaf parameter child cannot take a path that has a further segment after the one it captures. */
  lemma {:induction false} LeafParamFails(n: Node, verb: string, path: string, params: map<string, string>, above: seq<Middleware>)
    requires !Consumed(path) && !Consumed(NextSegment(path).1)
    requires n.param.Some? && n.param.value.statics == [] && n.param.value.param.None? && n.param.value.wildcard.None?
    ensures FindFrom(n.param.value, verb, NextSegment(path).1, params[n.param.value.paramName := NextSegment(path).0], above + n.middlewares).Err?
  {
    LeafMatchesNothingDeeper(n.param.value, verb, NextSegment(path).1, params[n.param.value.paramName := NextSegment(path).0], above + n.middlewares);
  }

  /**
   * Below a node whose parameter child is a leaf, a path of two or more
   * segments with no static match falls through to the wildcard child,
   * which captures the whole path after the node.
   */
  lemma {:induction false} LeafParamFallsThrough(n: Node, verb: string, path: string)
    requires !Consumed(path) && !Consumed(NextSegment(path).1)
    requires Child(n, StaticStep(NextSegment(path).0)).None?
    requires n.param.Some? && n.param.value.statics == [] && n.param.value.param.None? && n.param.value.wildcard.None?
    requires n.wildcard.Some? && verb in n.wildcard.value.handlers
    ensures var r := FindFrom(n, verb, path, map[], []);
      && r.Ok?
      && r.value.handler == n.wildcard.value.handlers[verb]
      && r.value.params == map[n.wildcard.value.paramName := NextSegment(path).0 + NextSegment(path).1]
      && r.value.trail == [WildcardStep]
      && r.value.middlewares == n.middlewares + n.wildcard.value.middlewares
  {
    var empty: seq<Middleware> := [];
    var w := n.wildcard.value;
    var captured := map[][w.paramName := NextSegment(path).0 + NextSegment(path).1];
    LeafParamFails(n, verb, path, map[], empty);
    FindFallsBackToWildcard(n, verb, path, map[], empty);
    assert empty + n.middlewares == n.middlewares;
    var inner := FindFrom(w, verb, "", captured, n.middlewares);
    assert FindFrom(n, verb, path, map[], empty) == Via(WildcardStep, inner);
    FindAtConsumed(w, verb, "", captured, n.middlewares);
    assert inner == Ok(Resolved(w.handlers[verb], n.middlewares + w.middlewares, captured, []));
  }

  /** Under "users", a path of two or more segments fails through the parameter and is taken by the wildcard. */
  lemma DeepUnderUsers(segment: string, rest: string)
    requires '/' !in segment && segment != "" && segment != Admin && rest != ""
    ensures FindFrom(UsersNode(), Get, "/" + (segment + "/" + rest), map[], [])
         == Ok(Resolved(HandlerFn(3), [], map["path" := segment + "/" + rest], [WildcardStep]))
  {
    NoStaticUnderUsers(segment);
    NextSegmentInner(segment, rest);
    LeafParamFallsThrough(UsersNode(), Get, "/" + (segment + "/" + rest));
  }

  /**
   * A deeper path under "/users" fails below the parameter and falls back
   * to the wildcard, which takes the rest of the path with its slashes.
   */
  lemma WildcardTakesTheRest(segment: string, rest: string)
    requires '/' !in segment && segment != "" && segment != Admin && rest != ""
    ensures var path := "/" + Users + "/" + (segment + "/" + rest);
      Find(PriorityTree(), Get, path) == Ok(Match.Route(Get, path, HandlerFn(3), [], map["path" := segment + "/" + rest]))
  {
    EntersUsers(Get, segment + "/" + rest);
    DeepUnderUsers(segment, rest);
  }

  /** A path bound for another method only is a miss, reported with the method and path as given. */
  lemma OtherMethodMisses()
    ensures Find(PriorityTree(), "POST", "/" + Users + "/" + Admin) == Err(NewRouteError("POST", "/" + Users + "/" + Admin, RouteNotFound))
  {
    SegmentTexts();
    var empty: seq<Middleware> := [];
    EntersUsers("POST", Admin);
    NextSegmentLast(Admin);
    assert Child(UsersNode(), StaticStep(Admin)) == Some(AdminNode());
    FindAtStatic(UsersNode(), "POST", "/" + Admin, map[], empty);
    assert empty + UsersNode().middlewares == empty;
    FindAtConsumed(AdminNode(), "POST", "", map[], empty);
  }
}

=== FILE: segments.dfy ===
/**
 * Splitting a path into segments and classifying each segment. Insertion
 * and lookup both consume a path through `NextSegment`, so they cut every
 * path the same way.
 */
module Segments {
  import opened Regex
  import opened Tree

  /** Position of the first slash in `s`, or `|s|` if there is none. */
  function IndexOfSlash(s: string): (i: nat)
    ensures i <= |s|
    ensures i < |s| ==> s[i] == '/'
    ensures '/' !in s[..i]
  {
    if s == [] then 0
    else if s[0] == '/' then 0
    else
      var j := IndexOfSlash(s[1..]);
      assert s[..1 + j] == [s[0]] + s[1..][..j];
      1 + j
  }

  /**
   * Splits at the first slash into the leading segment and the rest; the
   * rest keeps its leading slash, unless nothing follows that slash, in
   * which case it is empty.
   */
  function GetPathSegment(path: string): (r: (string, string))
    ensures '/' !in r.0
    ensures r.1 == "" || r.1[0] == '/'
    ensures r.1 != "" ==> r.0 + r.1 == path
    ensures r.1 == "" ==> path == r.0 || path == r.0 + "/"
    ensures path == "" || path == "/" ==> r == ("", "")
    ensures |r.1| <= |path|
    ensures path != "" && path[0] != '/' ==> |r.1| < |path|
  {
    var k := IndexOfSlash(path);
    if k == |path| then
      assert path[..k] == path;
      (path, "")
    else
      var segment, rest := path[..k], path[k + 1..];
      assert path == segment + ("/" + rest) by {
        assert path == path[..k] + path[k..];
        assert path[k..] == "/" + rest;
      }
      assert path[0] != '/' ==> k > 0;
      (segment, if rest == "" then "" else "/" + rest)
  }

  /** The two shapes of input `GetPathSegment` meets, and what it makes of each. */
  lemma GetPathSegmentExact(segment: string, rest: string)
    requires '/' !in segment
    ensures GetPathSegment(segment) == (segment, "")
    ensures GetPathSegment(segment + "/" + rest) == (segment, if rest == "" then "" else "/" + rest)
  {
    var s := segment + "/" + rest;
    var k := IndexOfSlash(s);
    assert s[..|segment|] == segment;
    assert s[|segment|] == '/';
    assert k == |segment|;
    assert s[k + 1..] == rest;
  }

  function StripLeadingSlash(path: string): string {
    if path != "" && path[0] == '/' then path[1..] else path
  }

  /** A path is fully consumed when it is empty or a single slash. */
  predicate Consumed(path: string) {
    path == "" || path == "/"
  }

  /**
   * The segment to match next and the path left after it, for a path that
   * is not yet consumed: one leading slash is dropped, then the rest is
   * split. The remainder is always strictly shorter than the input, which
   * is what makes insertion and lookup terminate.
   */
  function NextSegment(path: string): (r: (string, string))
    requires !Consumed(path)
    ensures '/' !in r.0
    ensures |r.1| < |path|
    ensures r.1 == "" || r.1[0] == '/'
  {
    GetPathSegment(StripLeadingSlash(path))
  }

  /** A leading slash is optional: with or without it, the same segment comes next. */
  lemma NextSegmentIgnoresLeadingSlash(path: string)
    requires path != "" && path[0] != '/'
    ensures !Consumed("/" + path)
    ensures NextSegment("/" + path) == NextSegment(path)
  {
    assert ("/" + path)[1..] == path;
  }

  /** The next segment of "/segment" is `segment`, and nothing is left. */
  lemma NextSegmentLast(segment: string)
    requires '/' !in segment && segment != ""
    ensures !Consumed("/" + segment) && NextSegment("/" + segment) == (segment, "")
  {
    GetPathSegmentExact(segment, "");
    assert ("/" + segment)[1..] == segment;
  }

  /** The next segment of "/segment/rest" is `segment`, and "/rest" is left. */
  lemma NextSegmentInner(segment: string, rest: string)
    requires '/' !in segment && segment != "" && rest != ""
    ensures !Consumed("/" + segment + "/" + rest) && NextSegment("/" + segment + "/" + rest) == (segment, "/" + rest)
    ensures "/" + (segment + "/" + rest) == "/" + segment + "/" + rest
    ensures segment + ("/" + rest) == segment + "/" + rest
  {
    var path := "/" + segment + "/" + rest;
    assert path[1..] == segment + "/" + rest;
    GetPathSegmentExact(segment, rest);
  }

  /**
   * The kind of a segment and, for parameters and wildcards, the name it
   * binds: the text between the braces, or the text after the asterisk.
   */
  function RouteTypeFromSegment(segment: string): (r: (RouteType, string))
    ensures r.0 == Param <==> IsPathParam(segment)
    ensures r.0 == Wildcard <==> IsWildcard(segment)
    ensures r.0 == Static <==> !IsPathParam(segment) && !IsWildcard(segment)
    ensures r.0 == Param ==> segment == "{" + r.1 + "}"
    ensures r.0 == Wildcard ==> segment == "*" + r.1
    ensures r.0 == Static ==> r.1 == ""
  {
    if IsPathParam(segment) then
      assert segment == "{" + segment[1..|segment| - 1] + "}";
      (Param, segment[1..|segment| - 1])
    else if IsWildcard(segment) then
      assert segment == "*" + segment[1..];
      (Wildcard, segment[1..])
    else (Static, "")
  }

  /**
   * The classifier on the segment shapes the source's tests use, and on
   * empty names. A colon-prefixed segment such as ":id" is plain static
   * text under the brace convention.
   */
  lemma ClassifierExamples()
    ensures RouteTypeFromSegment("users") == (Static, "")
    ensures RouteTypeFromSegment(":id") == (Static, "")
    ensures RouteTypeFromSegment("{id}") == (Param, "id")
    ensures RouteTypeFromSegment("{userId}") == (Param, "userId")
    ensures RouteTypeFromSegment("*path") == (Wildcard, "path")
    ensures RouteTypeFromSegment("*filepath") == (Wildcard, "filepath")
    ensures RouteTypeFromSegment("{}") == (Param, "")
    ensures RouteTypeFromSegment("*") == (Wildcard, "")
  {
    assert "{id}"[1..3] == "id";
    assert "{userId}"[1..7] == "userId";
  }

  /** The child slot a segment selects during insertion. */
  function StepOf(segment: string): Step {
    match RouteTypeFromSegment(segment).0
    case Param => ParamStep
    case Wildcard => WildcardStep
    case _ => StaticStep(segment)
  }

  /** All segments of a path, in order, as insertion and lookup consume them. */
  function Segments(path: string): seq<string>
    decreases |path|
  {
    if Consumed(path) then []
    else
      var sr := NextSegment(path);
      [sr.0] + Segments(sr.1)
  }

  /** The trail insertion follows for `path`: one step per segment, by the segment's kind. */
  function StepsOf(path: string): (trail: seq<Step>)
    ensures |trail| == |Segments(path)|
    decreases |path|
  {
    if Consumed(path) then []
    else
      var sr := NextSegment(path);
      [StepOf(sr.0)] + StepsOf(sr.1)
  }

  /** Every segment of the path is static text. */
  predicate AllStatic(path: string)
    decreases |path|
  {
    Consumed(path) || (RouteTypeFromSegment(NextSegment(path).0).0 == Static && AllStatic(NextSegment(path).1))
  }
}

=== FILE: structure.dfy ===
/**
 * The structural invariants of a routing tree: every child sits in the slot
 * its own segment text selects, a node has at most one parameter child and
 * at most one wildcard child (by the shape of `Node`), and the static
 * children of a node have pairwise distinct texts.
 */
module Structure {
  import opened Results
  import opened Tree
  import opened Segments

  predicate IsStaticChild(c: Node) {
    c.routeType == Static && '/' !in c.path && RouteTypeFromSegment(c.path) == (Static, c.paramName)
  }

  predicate IsParamChild(c: Node) {
    c.routeType == Param && '/' !in c.path && RouteTypeFromSegment(c.path) == (Param, c.paramName)
  }

  predicate IsWildcardChild(c: Node) {
    c.routeType == Wildcard && '/' !in c.path && RouteTypeFromSegment(c.path) == (Wildcard, c.paramName)
  }

  predicate StaticTextsDistinct(children: seq<Node>) {
    forall i, j :: 0 <= i < j < |children| ==> children[i].path != children[j].path
  }

  predicate Valid(n: Node)
    decreases n
  {
    && StaticTextsDistinct(n.statics)
    && (forall i :: 0 <= i < |n.statics| ==> IsStaticChild(n.statics[i]) && Valid(n.statics[i]))
    && (n.param.Some? ==> IsParamChild(n.param.value) && Valid(n.param.value))
    && (n.wildcard.Some? ==> IsWildcardChild(n.wildcard.value) && Valid(n.wildcard.value))
  }

  /** The root a router starts from: kind `NoneKind`, empty segment text, nothing registered. */
  function NewRoot(): (root: Node)
    ensures root.routeType == NoneKind && root.path == ""
    ensures Valid(root)
    ensures forall trail :: HandlersAt(root, trail) == map[]
  {
    var root := NewRouteNode("", NoneKind, "");
    assert forall trail :: HandlersAt(root, trail) == map[] by {
      forall trail ensures HandlersAt(root, trail) == map[] {
        FreshNodeIsLeaf("", NoneKind, "", trail);
      }
    }
    root
  }
}

=== FILE: tree.dfy ===
/**
 * The routing tree: node kinds, nodes, and navigation by step trails.
 *
 * The source links every node to its parent so that the full path and the
 * middleware chain can be rebuilt upwards. Here a node is an immutable value
 * that owns its children, and a node inside a tree is named by the trail of
 * child choices that leads to it from the root; everything the parent link
 * served is recomputed by walking that trail downwards.
 */
module Tree {
  import opened Results

  /** The kind of a node; `NoneKind` marks the root. */
  datatype RouteType = NoneKind | Static | Param | Wildcard

  /** Handlers are opaque; `NilHandler` is the nil function a group registers. */
  datatype Handler = NilHandler | HandlerFn(id: nat)

  /** Middleware functions are opaque identifiers. */
  type Middleware = nat

  datatype Node = Node(
    path: string,                      // the raw segment text of this node
    routeType: RouteType,
    paramName: string,                 // bound name, for parameter and wildcard nodes
    handlers: map<string, Handler>,    // method -> handler
    middlewares: seq<Middleware>,      // middleware attached at this node
    statics: seq<Node>,
    param: Option<Node>,
    wildcard: Option<Node>)

  function NewRouteNode(path: string, routeType: RouteType, paramName: string): Node {
    Node(path, routeType, paramName, map[], [], [], None, None)
  }

  /** One move from a node to one of its children. */
  datatype Step = StaticStep(text: string) | ParamStep | WildcardStep

  /** Index of the first static child whose segment text is `text`, or `|children|` if none. */
  function StaticIndex(children: seq<Node>, text: string): (i: nat)
    ensures i <= |children|
    ensures i < |children| ==> children[i].path == text
    ensures forall j :: 0 <= j < i ==> children[j].path != text
  {
    if children == [] then 0
    else if children[0].path == text then 0
    else 1 + StaticIndex(children[1..], text)
  }

  function Child(n: Node, s: Step): Option<Node> {
    match s
    case StaticStep(text) =>
      var i := StaticIndex(n.statics, text);
      if i < |n.statics| then Some(n.statics[i]) else None
    case ParamStep => n.param
    case WildcardStep => n.wildcard
  }

  /** The node reached from `n` by following `trail`, if every step exists. */
  function Descend(n: Node, trail: seq<Step>): Option<Node>
    decreases |trail|
  {
    if trail == [] then Some(n)
    else match Child(n, trail[0])
      case None => None
      case Some(c) => Descend(c, trail[1..])
  }

  /** The handlers of the node at `trail`; an absent node binds nothing. */
  function HandlersAt(n: Node, trail: seq<Step>): map<string, Handler> {
    match Descend(n, trail)
    case Some(d) => d.handlers
    case None => map[]
  }

  /** The local middleware of the node at `trail`; an absent node has none. */
  function MiddlewaresAt(n: Node, trail: seq<Step>): seq<Middleware> {
    match Descend(n, trail)
    case Some(d) => d.middlewares
    case None => []
  }

  /** The local middleware lists of every node from `n` down along `trail`, outermost first. */
  function ChainAlong(n: Node, trail: seq<Step>): seq<Middleware>
    decreases |trail|
  {
    if trail == [] then n.middlewares
    else match Child(n, trail[0])
      case None => n.middlewares
      case Some(c) => n.middlewares + ChainAlong(c, trail[1..])
  }

  /** The segment texts of the nodes below `n` along `trail`. */
  function TextsAlong(n: Node, trail: seq<Step>): seq<string>
    decreases |trail|
  {
    if trail == [] then []
    else match Child(n, trail[0])
      case None => []
      case Some(c) => [c.path] + TextsAlong(c, trail[1..])
  }

  /**
   * The full path a node reports, given the segment texts from the root down
   * to it: the root is "/", a child of a node whose path is "/" is "/" and
   * its text, and any deeper node is its parent's path, a slash and its text.
   */
  function NodePath(texts: seq<string>): (p: string)
    ensures |p| >= 1 && p[0] == '/'
    decreases |texts|
  {
    if texts == [] then "/"
    else
      var parentPath := NodePath(texts[..|texts| - 1]);
      var text := texts[|texts| - 1];
      if parentPath == "/" then "/" + text else parentPath + "/" + text
  }

  /** The texts separated by single slashes. */
  function Join(texts: seq<string>): string
    decreases |texts|
  {
    if texts == [] then ""
    else if |texts| == 1 then texts[0]
    else texts[0] + "/" + Join(texts[1..])
  }

  lemma {:induction false} JoinSnoc(texts: seq<string>, last: string)
    requires texts != []
    ensures Join(texts + [last]) == Join(texts) + "/" + last
    decreases |texts|
  {
    if |texts| == 1 {
      assert texts + [last] == [texts[0], last];
      assert [texts[0], last][1..] == [last];
    } else {
      assert (texts + [last])[1..] == texts[1..] + [last];
      JoinSnoc(texts[1..], last);
    }
  }

  /** When no segment text is empty, a node's path is "/" followed by the texts joined by slashes. */
  lemma {:induction false} NodePathIsJoin(texts: seq<string>)
    requires forall i :: 0 <= i < |texts| ==> texts[i] != ""
    ensures NodePath(texts) == "/" + Join(texts)
    decreases |texts|
  {
    if texts != [] {
      var init := texts[..|texts| - 1];
      var last := texts[|texts| - 1];
      assert init + [last] == texts;
      if init == [] {
        assert texts == [last];
      } else {
        NodePathIsJoin(init);
        var joined := Join(init);
        assert joined != "" by {
          assert init[0] == texts[0];
          JoinNonEmpty(init);
        }
        assert NodePath(texts) == ("/" + joined) + "/" + last;
        assert Join(texts) == joined + "/" + last by {
          JoinSnoc(init, last);
        }
        assert ("/" + joined) + "/" + last == "/" + (joined + "/" + last);
      }
    }
  }

  lemma {:induction false} JoinNonEmpty(texts: seq<string>)
    requires texts != [] && texts[0] != ""
    ensures Join(texts) != ""
  {
    if |texts| > 1 {
      assert |Join(texts)| >= |texts[0]|;
    }
  }

  /** A non-empty trail is its first step followed by the rest. */
  lemma SplitFirst(trail: seq<Step>)
    requires trail != []
    ensures trail == [trail[0]] + trail[1..]
  {
  }

  /** Trails of one and two steps, written by concatenation. */
  lemma ShortTrails(a: Step, b: Step)
    ensures [a] + [] == [a]
    ensures [a] + [b] == [a, b]
  {
  }

  /** Following a trail that starts with `s` is following `s`, then the rest of the trail. */
  lemma DescendCons(n: Node, s: Step, rest: seq<Step>)
    ensures Descend(n, [s] + rest) == (if Child(n, s).None? then None else Descend(Child(n, s).value, rest))
    ensures HandlersAt(n, [s] + rest) == (if Child(n, s).None? then map[] else HandlersAt(Child(n, s).value, rest))
    ensures MiddlewaresAt(n, [s] + rest) == (if Child(n, s).None? then [] else MiddlewaresAt(Child(n, s).value, rest))
    ensures Child(n, s).Some? ==> ChainAlong(n, [s] + rest) == n.middlewares + ChainAlong(Child(n, s).value, rest)
    ensures Child(n, s).Some? ==> TextsAlong(n, [s] + rest) == [Child(n, s).value.path] + TextsAlong(Child(n, s).value, rest)
  {
    assert ([s] + rest)[0] == s;
    assert ([s] + rest)[1..] == rest;
  }

  /** Following two trails one after the other is following their concatenation. */
  lemma {:induction false} DescendAppend(n: Node, first: seq<Step>, second: seq<Step>)
    requires Descend(n, first).Some?
    ensures Descend(n, first + second) == Descend(Descend(n, first).value, second)
    ensures HandlersAt(n, first + second) == HandlersAt(Descend(n, first).value, second)
    ensures MiddlewaresAt(n, first + second) == MiddlewaresAt(Descend(n, first).value, second)
    decreases |first|
  {
    if first != [] {
      assert first + second == [first[0]] + (first[1..] + second);
      SplitFirst(first);
      DescendCons(n, first[0], first[1..] + second);
      DescendCons(n, first[0], first[1..]);
      DescendAppend(Child(n, first[0]).value, first[1..], second);
    } else {
      assert first + second == second;
    }
  }

  /** A freshly created node binds no method and has no child to descend into. */
  lemma FreshNodeIsLeaf(path: string, routeType: RouteType, paramName: string, trail: seq<Step>)
    ensures HandlersAt(NewRouteNode(path, routeType, paramName), trail) == map[]
    ensures trail != [] ==> Descend(NewRouteNode(path, routeType, paramName), trail) == None
    ensures ChainAlong(NewRouteNode(path, routeType, paramName), trail) == []
  {
  }
}
